=== FILE: README.md ===
# Task Manager Pro — process sampling, grouping and lifecycle core in Dafny

Task Manager Pro lists the processes of a machine with their CPU and memory
load. It groups those processes into user-facing "apps" and lets the user
terminate, suspend or resume a process. The repository has three backends and
a terminal script:

- `backend-v1-fastapi/main.py` is the first FastAPI backend. It runs a timed
  process listing (`get_processes_fast`) and groups the result into apps
  (`get_apps_grouped`).
- `backend/main.py` is the second FastAPI backend. It has the protected-process
  guard, the process listing and the kill, suspend and resume endpoints.
- `backend/src/main.rs` is the Rust (axum + sysinfo) backend. It formats byte
  sizes, names statuses, lists processes and apps sorted by CPU, and handles
  kill and kill-app.
- `basic_monitor.py` is a terminal monitor. It prints a top-N table and a
  Fibonacci demo.

Each implementation is modelled on its own, branch for branch, and the
differences between them are proved rather than smoothed over. The operating
system becomes input data:

- one enumeration item per process (`ProcessSource.PerProcess`): an info
  record, an empty record, or a psutil exception;
- the outcome of each single psutil call (`Call`, `WaitResult`);
- whether the 8-second deadline was met (`Deadline`);
- for the Rust backend, a sysinfo `Snapshot` per process and the kill result
  per pid.

Modules, one per file:

| module | file | contents |
|---|---|---|
| `Wrappers` | wrappers.dfy | `Option`; Python `x or default` on unreadable attributes |
| `Text` | text.dfy | ASCII `lower()`, substring `in`, `str.replace(pat, '')` |
| `Seqs` | seqs.dfy | sums and projections; Python slicing; a stable descending sort with its stability lemma |
| `ProcessSource` | process_source.dfy | OS oracles; a listing pass as a sequence of skip / keep / stop steps |
| `Grouping` | grouping.dfy | a generic insertion-ordered dictionary fold, proved equal to a per-key reference |
| `Guard` | guard.dfy | system-process set, protected-process list, `is_system_process`, `is_user_app`, `is_protected_process` |
| `ByteUnits` | byte_units.dfy | the two Python `get_size` variants and Rust `format_bytes` |
| `FastApiV1` | fastapi_v1.dfy | `get_processes_fast`, `get_apps_grouped` |
| `PyBackend` | py_backend.dfy | `get_processes`, `kill_process`, `suspend_process`, `resume_process` |
| `RustBackend` | rust_backend.dfy | `get_process_status`, `get_processes`, `get_apps`, `kill_process`, `kill_app`, the suspend and resume stubs |
| `BasicMonitor` | basic_monitor.dfy | `get_top_processes`, `fibonacci` |

## Model

| member | source | states |
|---|---|---|
| Text.Lower | backend/main.py:50 | lower-casing keeps the length, leaves no upper-case letter and maps each character to its lower-case form |
| Text.Contains | backend/main.py:53-55 | `p in s` holds exactly when `p` occurs at some position of `s` |
| Text.RemoveAllWithoutMatch | backend-v1-fastapi/main.py:153 | `replace(pat, '')` leaves a name without an occurrence of `pat` unchanged |
| Text.RemoveAll | backend-v1-fastapi/main.py:153 | `replace(pat, '')` never lengthens the name |
| Text.RemoveAllOnlyDeletes | backend-v1-fastapi/main.py:153 | `replace(pat, '')` only deletes: the result's characters are drawn from the name, each at most as often |
| Text.RemoveAllFirstOccurrence | backend-v1-fastapi/main.py:153 | `replace` removes matches left to right: the text before the first match is kept, the match is dropped, scanning resumes after it |
| Seqs.Take | basic_monitor.py:69 | `processes[:limit]` is a prefix of length min(limit, n), and for a negative limit, n + limit clamped at 0 |
| Seqs.SortDesc | backend/src/main.rs:366 | the sort returns a permutation of its input ordered by descending key |
| Seqs.SortDescStable | basic_monitor.py:66 | the sort is stable: records with equal keys keep their input order |
| ProcessSource.Collect | backend-v1-fastapi/main.py:82-110 | the v1 pass returns a prefix of the kept records, all of them when nothing ends the pass, and only records some item produced |
| ProcessSource.CollectStopsAtFirstStop | backend-v1-fastapi/main.py:107-110 | an exception outside the per-process handler ends the pass with exactly the records kept before it |
| ProcessSource.CollectIgnoresSkip | backend-v1-fastapi/main.py:105-106 | a per-process exception skips that process and changes nothing else |
| ProcessSource.SkipChangesNothing | backend/main.py:235-236 | a skipped item neither fails the listing nor adds or removes a record |
| Grouping.GroupByIsPerKeySummary | backend-v1-fastapi/main.py:143-166 | the dictionary fold yields one group per key, in first-appearance order, each the summary of exactly that key's records |
| Grouping.KeysDistinct | backend-v1-fastapi/main.py:156 | every key gets one dictionary entry |
| Grouping.MembersExactly | backend-v1-fastapi/main.py:143-158 | a record is in a key's group exactly when it is admitted and has that key |
| Grouping.KeysHaveMembers | backend-v1-fastapi/main.py:169-170 | a key appears exactly when its group has at least one member |
| Guard.SystemProcessCaseInsensitive | backend-v1-fastapi/main.py:46-48 | system-process detection ignores letter case |
| Guard.SystemProcessMeaning | backend-v1-fastapi/main.py:46-48 | a name is a system process exactly when some listed name equals it with its letters lower-cased |
| Guard.IsUserApp | backend-v1-fastapi/main.py:50-70 | a user app is never a system process; without an exe path it is exactly a non-system process; with one, it is a non-system process whose lower-cased path contains no system folder, or also contains an allowed package |
| Guard.WindowsFolderNotUserApp | backend-v1-fastapi/main.py:58-67 | notepad.exe under c:\windows\ is not a user app |
| Guard.TerminalPackageIsUserApp | backend-v1-fastapi/main.py:58-67 | Windows Terminal under WindowsApps is let through as a user app |
| Guard.OwnProgramIsUserApp | backend-v1-fastapi/main.py:58-70 | a program under a user folder is a user app |
| Guard.IsProtectedProcess | backend/main.py:48-61 | protected exactly when some protected fragment is a substring of the lower-cased name or the pid is at most 10 |
| Guard.ContainingSystemIsProtected | backend/main.py:52-55 | any name containing "system" in any case is protected whatever its pid |
| Guard.UnmatchedNameProtectedOnlyByPid | backend/main.py:57-61 | with no fragment matching, protection is exactly pid <= 10 |
| Guard.ProtectedNamesAreSystem | backend/main.py:23-27 | every protected name is also in the v1 system-process set |
| Guard.ProtectionExamples | backend/main.py:48-61 | explorer.exe at pid 4000 and myapp.exe at pid 5 are protected; myapp.exe at pid 4000 is not; systemd is protected by substring |
| ByteUnits.UnitIndexUnique | backend/main.py:42-45 | a size has exactly one unit index: 1024^i <= size < 1024^(i+1), capped at the last unit |
| ByteUnits.ScaleFromPicksUnitIndex | backend/main.py:42-46 | the divide-by-1024 loop stops at the unit index of the size and divides by 1024^index |
| ByteUnits.ScaleFrom | backend/main.py:42-46 | the loop yields a one-decimal value in a unit from the current one on; below PB the value is under 1024; a value already under 1024 stays in the current unit |
| ByteUnits.GetSize | backend/main.py:40-46 | the value is size / 1024^i in unit i of B..PB, one decimal, where i is the unit index capped at PB |
| ByteUnits.BasicLoopMatchesBackend | basic_monitor.py:16-21 | the basic loop is the backend loop with two decimals, except that it yields None where the backend says PB |
| ByteUnits.ScaleFromBasic | basic_monitor.py:18-21 | the basic loop yields a two-decimal value under 1024 in a unit from the current one on, or nothing once TB is passed |
| ByteUnits.GetSizeBasic | basic_monitor.py:16-21 | None exactly from 1024^5 on; otherwise size / 1024^i in unit i of B..TB with two decimals, i the unit index |
| ByteUnits.GetSizeBasicAgrees | basic_monitor.py:16-21 | below 1024^5 the two Python formatters agree up to precision; from 1024^5 the basic one returns None |
| ByteUnits.FloorLog1024 | backend/src/main.rs:172 | the exact floor of log base 1024 of a positive size |
| ByteUnits.FormatBytes | backend/src/main.rs:164-177 | zero prints "0 B"; any other size is scaled to its unit index capped at TB, with one decimal |
| ByteUnits.FormatBytesAgreesWithGetSize | backend/src/main.rs:164-177 | Rust and Python agree on every size from 1 to below 1024^5; from there Rust stays at TB while Python moves to PB |
| FastApiV1.FetchStep | backend-v1-fastapi/main.py:84-106 | an item is skipped exactly when it is empty, has pid 0 or raises a per-process error; a readable item with nonzero pid ends the pass exactly when the core count is missing or zero or the name is unreadable, and is otherwise kept as its record; any other exception ends the pass |
| FastApiV1.MakeRecord | backend-v1-fastapi/main.py:90-104 | a record keeps pid and name, shows user or "N/A", cpu divided by the core count, memory or 0, rss in MiB or 0, status or "unknown", threads or 0, an empty exe, and protection by system-process name |
| FastApiV1.FetchProcesses | backend-v1-fastapi/main.py:74-110 | listed records have pid != 0, an empty exe, and `is_protected` equal to system-process membership |
| FastApiV1.GetProcessesFast | backend-v1-fastapi/main.py:112-121 | a missed deadline gives an empty list with count 0; otherwise the count is the list length |
| FastApiV1.SkippedItemIsIgnored | backend-v1-fastapi/main.py:86-87 | an empty item, pid 0, or a per-process exception leaves the listing as if the item were absent |
| FastApiV1.UnexpectedErrorKeepsPrefix | backend-v1-fastapi/main.py:82-110 | any other exception returns what was listed before it |
| FastApiV1.FetchKeepsPidsDistinct | backend-v1-fastapi/main.py:83-104 | distinct pids in the enumeration give a listing free of duplicate pids |
| FastApiV1.ListedMeaning | backend-v1-fastapi/main.py:145-150 | a record is left out of the apps exactly when its name is a system process name in any letter case or its user is SYSTEM, N/A or NT AUTHORITY\SYSTEM |
| FastApiV1.BaseName | backend-v1-fastapi/main.py:153 | the base name is never longer than the process name |
| FastApiV1.BaseNameOnlyDeletes | backend-v1-fastapi/main.py:153 | the base name only deletes from the process name |
| FastApiV1.BaseNameWithoutSuffix | backend-v1-fastapi/main.py:153 | a name containing neither ".exe" nor ".com" is its own base name |
| FastApiV1.BaseNameStripsExe | backend-v1-fastapi/main.py:153 | a dotless stem followed by ".exe" keys to the stem |
| FastApiV1.BaseNameKeepsUpperSuffix | backend-v1-fastapi/main.py:153 | suffix stripping is case-sensitive: "Code.EXE" keeps its suffix |
| FastApiV1.SummaryIsAppOf | backend-v1-fastapi/main.py:156-165 | the fold's entry for a key equals the reference app: summed cpu and memory, pids in order, count, last non-running status |
| FastApiV1.GroupApps | backend-v1-fastapi/main.py:128-183 | one app per base name in first-appearance order, each built from exactly that name's listed records |
| FastApiV1.AppShape | backend-v1-fastapi/main.py:156-181 | every emitted app has count = number of pids >= 1, the member sums, the last non-running status, an empty exe and is closeable |
| FastApiV1.AppMembership | backend-v1-fastapi/main.py:143-158 | app names are distinct, and a record belongs to an app exactly when it is listed and its base name is the app's name |
| FastApiV1.LastNonRunningMeaning | backend-v1-fastapi/main.py:164-165 | the status is "running" exactly when every member runs; otherwise it is the status of the last non-running member |
| FastApiV1.GetAppsGrouped | backend-v1-fastapi/main.py:123-129 | a missed listing deadline gives no apps; otherwise the apps are the grouping of exactly the records the listing pass returns |
| FastApiV1.GroupedAppPidsNonZero | backend-v1-fastapi/main.py:86-87 | no app the endpoint returns holds pid 0 |
| FastApiV1.AggregationExample | backend-v1-fastapi/main.py:123-183 | two chrome.exe processes (one stopped) and one notepad.exe give a "chrome" app with both pids, summed load and status "stopped", then a running "notepad" app |
| FastApiV1.UnreadableUserNeverListed | backend-v1-fastapi/main.py:95 | a process with no readable user is shown as "N/A" and so never joins an app |
| PyBackend.CreateTimeOf | backend/main.py:232 | the create time is reported exactly when it is nonzero, and then it is the process's own create time |
| PyBackend.ListStep | backend/main.py:215-236 | only per-process errors are skipped; a record is kept exactly when the name and a usable core count are present, and then carries pid, name, user or "N/A", cpu / cores, memory or 0, rss in MiB or 0, status, threads or 0, the create time when nonzero, and the protection flag |
| PyBackend.GetProcesses | backend/main.py:205-243 | the listing fails with 500 exactly when some item stops it; otherwise it holds exactly the kept records, with count = length and the protection flags |
| PyBackend.GetProcessesEmpty | backend/main.py:205-240 | an empty enumeration gives count 0 and no processes |
| PyBackend.GetProcessesSingle | backend/main.py:215-243 | one item gives its record, nothing when it is skipped, or 500 when it stops the listing |
| PyBackend.GetProcessesAppend | backend/main.py:205-243 | a listing of two runs succeeds exactly when both do, and then lists the first run's processes followed by the second's, count added |
| PyBackend.GetProcessesSkipsPerProcessError | backend/main.py:235-236 | a NoSuchProcess, AccessDenied or ZombieProcess item leaves the listing as if it were absent |
| PyBackend.GetProcessesFailsExactly | backend/main.py:205-243 | the request fails exactly when some item is empty, raises an unexpected error, or lacks a name or a usable core count |
| PyBackend.LowPidsListedAsProtected | backend/main.py:221 | pid 0 and other pids up to 10 are listed and flagged protected |
| PyBackend.KillExcept | backend/main.py:327-338 | only the wait timeout turns into success ("termination initiated"); a psutil exception maps by type; any other exception gives 500 |
| PyBackend.OsStatus | backend/main.py:351-356 | NoSuchProcess and ZombieProcess give 404, AccessDenied gives 403, anything else gives 500 |
| PyBackend.KillProcess | backend/main.py:300-338 | a signal is sent exactly when the name is read and the process is not protected; a failed lookup maps by exception type with no signal; a protected process gets 500; a failed signal or wait maps by type; a timed-out wait reports "termination initiated"; "terminated" exactly on the full success path; `force` is echoed |
| PyBackend.KillProcessIntended | backend/main.py:307-312 | a protected process gets 403 with no signal; otherwise the result is the handler's as written |
| PyBackend.ProtectedKillAnswers500 | backend/main.py:307-312 | a kill request for pid 4 gets 500 from the code as written and 403 from the intended handler |
| PyBackend.KillVersionsAgreeOffProtection | backend/main.py:300-338 | both versions send the same signals and succeed on the same inputs |
| PyBackend.KillTimeoutStillSucceeds | backend/main.py:331-336 | a timed-out wait still reports success, after the signal was sent |
| PyBackend.KillRefusalIgnoresLaterCalls | backend/main.py:307-312 | a refused kill does not depend on the signal and wait outcomes |
| PyBackend.SignalProcess | backend/main.py:340-374 | success exactly when lookup and call both return; the signal is sent once the lookup succeeds; errors map by exception type |
| PyBackend.SuspendProcess | backend/main.py:340-356 | suspend succeeds exactly when lookup and suspend return, with no protection check |
| PyBackend.ResumeProcess | backend/main.py:358-374 | resume succeeds exactly when lookup and resume return |
| RustBackend.StatusName | backend/src/main.rs:179-188 | Run, Sleep, Stop, Zombie and Dead give "running", "sleeping", "stopped", "zombie" and "dead"; every other status gives "unknown" |
| RustBackend.StatusNamesDistinct | backend/src/main.rs:179-188 | the five named statuses have distinct names |
| RustBackend.Measure | backend/src/main.rs:330-361 | a row keeps pid, name, status name, start time and command line; cpu is usage divided by the core count; memory is the percentage of total memory and the size in MiB; exe and cwd fall back to "N/A"; user "N/A", zero threads, not protected |
| RustBackend.GetProcesses | backend/src/main.rs:311-374 | every process is listed once, ordered by descending cpu, with count = length |
| RustBackend.GetProcessesStableAndUnprotected | backend/src/main.rs:366 | equal-cpu processes keep enumeration order, and none is flagged protected |
| RustBackend.SummaryIsAppOf | backend/src/main.rs:410-429 | an app's entry sums its members, lists their pids, takes the first member's exe and stays "running" |
| RustBackend.AppsByName | backend/src/main.rs:400-429 | one app per exact process name, built from that name's processes |
| RustBackend.GetApps | backend/src/main.rs:376-440 | the apps, one per name, ordered by descending summed cpu, with count = length |
| RustBackend.AppsHoldTheirProcesses | backend/src/main.rs:410-429 | each app holds exactly the processes of its name: count = number of pids, status "running", exe of its first process |
| RustBackend.EveryProcessHasItsApp | backend/src/main.rs:400-429 | every process name has an app, and app names are distinct |
| RustBackend.KillProcess | backend/src/main.rs:442-460 | 404 exactly for an unknown pid; success exactly when `kill()` reports success; 403 otherwise |
| RustBackend.KillApp | backend/src/main.rs:462-486 | counts the pids whose single kill succeeds; success exactly when the count is positive, 403 otherwise |
| RustBackend.KilledMeaning | backend/src/main.rs:470-476 | the count never exceeds the list length and is positive exactly when some listed pid can be killed |
| RustBackend.KilledSkipsFailures | backend/src/main.rs:470-476 | an unknown or unkillable pid adds nothing to the count |
| RustBackend.SuspendProcess | backend/src/main.rs:488-495 | suspend always reports success with "not yet implemented" |
| RustBackend.ResumeProcess | backend/src/main.rs:497-504 | resume always reports success with "not yet implemented" |
| BasicMonitor.GatherStep | basic_monitor.py:58-63 | NoSuchProcess, ZombieProcess and AccessDenied are skipped; an info record is kept unchanged; anything else ends the run |
| BasicMonitor.RowOf | basic_monitor.py:70-74 | a row keeps the pid, prints the name's first 24 characters or "N/A" when missing or empty, memory or 0, status or "unknown", and the sort key as cpu |
| BasicMonitor.TopProcesses | basic_monitor.py:49-76 | the rows are the first `limit` of a cpu-descending permutation of the readable processes; an unexpected exception gives none |
| BasicMonitor.TopRowsDominate | basic_monitor.py:66-69 | a printed row is never less busy than a process left off the table |
| BasicMonitor.TopProcessesStable | basic_monitor.py:66-74 | the printed rows are the first `limit` of the ranking, in which equal-cpu processes appear in enumeration order |
| BasicMonitor.SkippedProcessIgnored | basic_monitor.py:62-63 | an access-denied or vanished process leaves the table as if it were absent |
| BasicMonitor.Fibonacci | basic_monitor.py:253-259 | returns the first n Fibonacci numbers, none for n <= 0 |
| BasicMonitor.FibonacciNonDecreasing | basic_monitor.py:253-259 | the printed Fibonacci sequence never decreases |
| BasicMonitor.FirstTen | basic_monitor.py:261 | the first ten numbers are 0, 1, 1, 2, 3, 5, 8, 13, 21, 34 |

## Behaviour worth noting

- **Apps exclusion.** `get_apps_grouped` leaves a process out of the apps when
  its name is a system process OR it runs under a system account
  (`ListedMeaning`).
- **App status.** Each later non-running member overwrites the app status, so
  the app shows the last non-running status (`LastNonRunningMeaning`).
- **App key.** ".exe" and ".com" are removed wherever they occur in the name,
  and only in lower case (`BaseNameKeepsUpperSuffix`).
- **`is_closeable`.** Both app groupings, the v1 one and the Rust one, set it
  to true.
- **pid 0.** Only the v1 listing drops pid 0; backend/main.py lists it as
  protected (`LowPidsListedAsProtected`).
- **Timeout flag.** The v1 timeout returns an empty list with no flag marking
  the answer as incomplete.
- **Refusing protected processes.** Only the Python kill handler checks
  protection. Python suspend and resume and the Rust kill and kill-app
  handlers signal any process (`SuspendProcess`, `RustBackend.KillProcess`);
  the Rust suspend and resume stubs send nothing.
- **Protection rule.** The name rule is a substring test on the lower-cased
  name, not set membership (`ContainingSystemIsProtected`).

## Findings

| source | as written | input that shows it | evidently intended | confidence | as-written member | corrected member |
|---|---|---|---|---|---|---|
| backend/main.py:307-338 | the 403 `HTTPException` for a protected process is raised inside the `try`, and `except Exception` (line 337) turns it into a 500 | POST /api/process/4/kill: pid 4 is protected by the pid rule | 403 "protected system process", still with no signal sent | high; not executed | PyBackend.ProtectedKillAnswers500 | PyBackend.KillProcessIntended |

`PyBackend.KillProcess` models the handler as written.
`PyBackend.KillVersionsAgreeOffProtection` shows that the correction changes
only the status code of refused requests.

## Left out

- Rounding to one decimal (`round(x, 1)`) and all string formatting are left
  out. Records carry the unrounded values; messages are tags such as
  `Terminated` instead of text.
- ByteUnits.FormatBytes: the float expression `(ln(size) / ln(1024)).floor()`
  is replaced by its exact integer meaning (`FloorLog1024`). Float rounding
  near powers of 1024 is not modelled.
- Text.Lower: Python's `str.lower()` is modelled on ASCII letters only. Other
  Unicode case mappings are not modelled.
- RustBackend.GetProcesses: the divisions `cpu_usage / num_cpus` and
  `memory / total_memory` are required to have nonzero divisors. A zero core
  count makes every cpu value NaN, and NaN makes the sort's
  `partial_cmp(...).unwrap()` panic. A zero total memory does not panic (the
  sort reads only cpu); the memory fields become inf or NaN, which real
  numbers cannot represent, so that case is excluded too. IEEE floating point
  is not modelled.
- RustBackend.GetApps: same requirement and reason as RustBackend.GetProcesses.
- RustBackend.Measure: same requirement and reason as RustBackend.GetProcesses.
- RustBackend.GetApps: the HashMap's visiting order is taken as insertion
  order. The contract fixes the result only up to a cpu-sorted permutation,
  so it holds for any visiting order.
- RustBackend.KillApp: each pid's kill outcome is an input, and a pid listed
  twice repeats that outcome. The program sends the second signal to a
  process that may already be gone, so it may count fewer kills than the
  model (1 instead of 2 for `[5, 5]`).
- CPU percentages come from psutil or sysinfo and are inputs here. The
  200 ms double refresh, `cpu_percent` baselines and the first-sample zero
  live inside those libraries.
- Concurrency is not modelled: the thread pool, the asyncio event loop, the
  mutex around the sysinfo `System`, and the worker that keeps running after
  a timeout. The deadline is an input.
- `psutil.Process(pid)` and `name()` are one lookup oracle in the kill
  handler. A negative pid, which psutil rejects with ValueError, is that
  oracle failing with `OtherError` (500).
- The v1 record's constant `create_time: 0` field is dropped.
- Not part of this model: system stats, GPU, disk and network endpoints,
  process-detail endpoints, health and root endpoints, the terminal menu and
  `get_process_details` of basic_monitor.py, CORS and routing, the tester
  scripts, and the older-versions directory.

=== FILE: basic_monitor.dfy ===
/**
 * basic_monitor.py: the top-processes table and the Fibonacci demo.
 * (Its `get_size` is modelled beside the other byte formatters.)
 */
module BasicMonitor {
  import opened Wrappers
  import opened Seqs
  import opened ProcessSource

  /** One printed line of the table, before padding and two-decimal formatting. */
  datatype Row = Row(pid: nat, name: string, cpuPercent: real, memoryPercent: real, status: string)

  /**
   * The enumeration loop: info dicts are kept as they are, NoSuchProcess
   * (with its subclass ZombieProcess) and AccessDenied are skipped, any
   * other exception escapes. An empty info dict lacks the keys the sort
   * reads, so it also ends the run.
   */
  function GatherStep(item: PerProcess): (s: Step<ProcInfo>)
    ensures s.Skip? <==> item.ReadFails? && item.err.IsPerProcess()
    ensures s.Keep? <==> item.Info?
    ensures item.Info? ==> s == Keep(item.info)
  {
    match item
    case Info(p) => Keep(p)
    case NoInfo => Stop
    case ReadFails(e) => if e.IsPerProcess() then Skip else Stop
  }

  function Gathered(items: seq<PerProcess>): seq<Step<ProcInfo>>
  {
    MapSteps(items, GatherStep)
  }

  /** The sort key, `x['cpu_percent'] or 0`. */
  function CpuKey(p: ProcInfo): real
  {
    RealOr0(p.cpuPercent)
  }

  /** The printed values: the name cut to 24 characters, or "N/A" when missing or empty. */
  function RowOf(p: ProcInfo): (row: Row)
    ensures row.cpuPercent == CpuKey(p)
    ensures row.pid == p.pid
    ensures |row.name| <= 24
    ensures p.name.Some? && p.name.value != "" ==>
              row.name <= p.name.value && |row.name| == if |p.name.value| < 24 then |p.name.value| else 24
    ensures p.name.None? || p.name.value == "" ==> row.name == "N/A"
    ensures row.memoryPercent == RealOr0(p.memoryPercent) && row.status == StrOr(p.status, "unknown")
    ensures row.name == "N/A" <==> p.name.None? || p.name.value == "" || p.name.value[..if |p.name.value| < 24 then |p.name.value| else 24] == "N/A"
  {
    var name := if p.name.Some? && p.name.value != "" then
                  p.name.value[..if |p.name.value| < 24 then |p.name.value| else 24]
                else "N/A";
    Row(p.pid, name, CpuKey(p), RealOr0(p.memoryPercent), StrOr(p.status, "unknown"))
  }

  function RowCpu(r: Row): real { r.cpuPercent }

  /**
   * `get_top_processes(limit)`: the rows of the `limit` busiest processes,
   * busiest first, or None when the run ends in an exception.
   */
  function TopProcesses(items: seq<PerProcess>, limit: int): (r: Option<seq<Row>>)
    ensures r.None? <==> Stops(Gathered(items))
    ensures r.Some? ==> exists order :: multiset(order) == multiset(KeptAll(Gathered(items))) &&
                                        SortedDesc(order, CpuKey) &&
                                        r.value == Project(Take(order, limit), RowOf)
    ensures r.Some? && limit >= 0 ==> |r.value| == if limit < |KeptAll(Gathered(items))| then limit else |KeptAll(Gathered(items))|
    ensures r.Some? ==> SortedDesc(r.value, RowCpu)
  {
    var steps := Gathered(items);
    if Stops(steps) then None
    else
      var kept := KeptAll(steps);
      var order := SortDesc(kept, CpuKey);
      assert |order| == |multiset(order)| == |multiset(kept)|;
      var rows := Project(Take(order, limit), RowOf);
      assert SortedDesc(rows, RowCpu) by {
        forall i, j | 0 <= i < j < |rows|
          ensures rows[i].cpuPercent >= rows[j].cpuPercent
        {
          assert Take(order, limit) <= order;
          assert rows[i] == RowOf(order[i]) && rows[j] == RowOf(order[j]);
        }
      }
      Some(rows)
  }

  /** The enumeration's info dicts, busiest first. */
  function Ranked(items: seq<PerProcess>): seq<ProcInfo>
  {
    SortDesc(KeptAll(Gathered(items)), CpuKey)
  }

  lemma TopUnfold(items: seq<PerProcess>, limit: int)
    ensures TopProcesses(items, limit) ==
              if Stops(Gathered(items)) then None else Some(Project(Take(Ranked(items), limit), RowOf))
  {
  }

  /** A table row is never busier than a process left off it. */
  lemma TopRowsDominate(items: seq<PerProcess>, limit: int)
    ensures TopProcesses(items, limit).Some? ==>
              var rows := TopProcesses(items, limit).value;
              forall i, p :: 0 <= i < |rows| && p in Ranked(items)[|rows|..] ==> rows[i].cpuPercent >= CpuKey(p)
  {
    TopUnfold(items, limit);
    RowsOfSortedDominate(Ranked(items), limit);
  }

  lemma RowsOfSortedDominate(order: seq<ProcInfo>, limit: int)
    requires SortedDesc(order, CpuKey)
    ensures var rows := Project(Take(order, limit), RowOf);
            forall i, p :: 0 <= i < |rows| && p in order[|rows|..] ==> rows[i].cpuPercent >= CpuKey(p)
  {
    var top := Take(order, limit);
    var rows := Project(top, RowOf);
    PrefixDominates(order, |top|, CpuKey);
    forall i, p | 0 <= i < |rows| && p in order[|rows|..]
      ensures rows[i].cpuPercent >= CpuKey(p)
    {
      assert top[i] == order[i];
    }
  }

  /**
   * The printed rows are those of the ranking, and processes with equal cpu
   * appear in the ranking in enumeration order (`sorted` is stable, also
   * with `reverse=True`).
   */
  lemma TopProcessesStable(items: seq<PerProcess>, limit: int, c: real)
    ensures TopProcesses(items, limit).Some? ==> TopProcesses(items, limit).value == Project(Take(Ranked(items), limit), RowOf)
    ensures WithKey(Ranked(items), CpuKey, c) == WithKey(KeptAll(Gathered(items)), CpuKey, c)
  {
    TopUnfold(items, limit);
    SortDescStable(KeptAll(Gathered(items)), CpuKey, c);
  }

  /** An access-denied or vanished process is left out without disturbing the table. */
  lemma SkippedProcessIgnored(a: seq<PerProcess>, e: OsError, b: seq<PerProcess>, limit: int)
    requires e.IsPerProcess()
    ensures TopProcesses(a + [ReadFails(e)] + b, limit) == TopProcesses(a + b, limit)
  {
    MapStepsSplit(a, ReadFails(e), b, GatherStep);
    var sa := Gathered(a);
    var sb := Gathered(b);
    assert Gathered(a + [ReadFails(e)] + b) == sa + [Skip] + sb;
    assert Gathered(a + b) == sa + sb;
    SkipChangesNothing(sa, sb);
    TopUnfold(a + [ReadFails(e)] + b, limit);
    TopUnfold(a + b, limit);
  }

  // ---- fibonacci ----

  /** The Fibonacci numbers, F(0) = 0, F(1) = 1. */
  function Fib(i: nat): nat
  {
    if i < 2 then i else Fib(i - 2) + Fib(i - 1)
  }

  /** `fibonacci(n)`: the first n Fibonacci numbers; `range(n)` is empty for n <= 0. */
  method Fibonacci(n: int) returns (s: seq<nat>)
    ensures |s| == if n > 0 then n else 0
    ensures forall i :: 0 <= i < |s| ==> s[i] == Fib(i)
  {
    var a: nat, b: nat := 0, 1;
    s := [];
    var k := 0;
    while k < n
      invariant 0 <= k <= (if n > 0 then n else 0)
      invariant |s| == k
      invariant forall i :: 0 <= i < k ==> s[i] == Fib(i)
      invariant a == Fib(k) && b == Fib(k + 1)
    {
      s := s + [a];
      a, b := b, a + b;
      k := k + 1;
    }
  }

  lemma {:induction false} FibStep(i: nat)
    ensures Fib(i) <= Fib(i + 1)
  {
    if i >= 1 {
      assert Fib(i + 1) == Fib(i - 1) + Fib(i);
    }
  }

  lemma {:induction false} FibMonotone(i: nat, j: nat)
    requires i <= j
    ensures Fib(i) <= Fib(j)
    decreases j - i
  {
    if i < j {
      FibStep(i);
      FibMonotone(i + 1, j);
    }
  }

  /** The printed sequence never decreases. */
  lemma FibonacciNonDecreasing(s: seq<nat>)
    requires forall i :: 0 <= i < |s| ==> s[i] == Fib(i)
    ensures forall i, j :: 0 <= i <= j < |s| ==> s[i] <= s[j]
  {
    forall i, j | 0 <= i <= j < |s|
      ensures s[i] <= s[j]
    {
      FibMonotone(i, j);
    }
  }

  /** The line the script prints at import. */
  lemma FirstTen()
    ensures seq(10, i requires 0 <= i => Fib(i)) == [0, 1, 1, 2, 3, 5, 8, 13, 21, 34]
  {
    assert Fib(2) == 1 && Fib(3) == 2 && Fib(4) == 3 && Fib(5) == 5;
    assert Fib(6) == 8 && Fib(7) == 13 && Fib(8) == 21 && Fib(9) == 34;
  }
}

=== FILE: byte_units.dfy ===
/**
 * Human-readable byte sizes. Three variants exist: `get_size` in
 * backend/main.py (falls through to PB), `get_size` in basic_monitor.py
 * (no PB case: returns None), and `format_bytes` in backend/src/main.rs
 * (special "0 B", unit index capped at TB). The Python loops divide by
 * 1024.0, which is exact in binary floating point, so the unit they pick is
 * the integer rule stated by `IsUnitIndex`.
 */
module ByteUnits {
  import opened Wrappers

  const Units: seq<string> := ["B", "KB", "MB", "GB", "TB"]
  const UnitsWithPB: seq<string> := Units + ["PB"]

  /** A rendered size: a fixed text, or a value printed with `decimals` places followed by a unit. */
  datatype Display = Text(text: string) | Scaled(value: real, unit: string, decimals: nat)

  function Pow1024(n: nat): (r: nat)
    ensures r >= 1
  {
    if n == 0 then 1 else 1024 * Pow1024(n - 1)
  }

  lemma {:induction false} Pow1024Increasing(i: nat, j: nat)
    requires i < j
    ensures Pow1024(i + 1) <= Pow1024(j)
    decreases j - i
  {
    if i + 1 < j {
      Pow1024Increasing(i, j - 1);
    }
  }

  lemma Pow1024Monotone(i: nat, j: nat)
    requires i <= j
    ensures Pow1024(i) <= Pow1024(j)
  {
    if 0 < i < j {
      Pow1024Increasing(i - 1, j);
    } else if i == 0 {
      assert Pow1024(0) == 1;
    }
  }

  /**
   * `i` is the unit index of `b` when units run up to index `last`: `b`
   * has reached `1024^i` and, unless `i` is the last unit, is below
   * `1024^(i+1)`.
   */
  ghost predicate IsUnitIndex(b: int, i: nat, last: nat)
  {
    && i <= last
    && (i < last ==> b < Pow1024(i + 1))
    && (i > 0 ==> b >= Pow1024(i))
  }

  /** The unit index is unique, so it determines the unit. */
  lemma UnitIndexUnique(b: int, i: nat, j: nat, last: nat)
    requires IsUnitIndex(b, i, last) && IsUnitIndex(b, j, last)
    ensures i == j
  {
    if i < j {
      Pow1024Increasing(i, j);
    } else if j < i {
      Pow1024Increasing(j, i);
    }
  }

  /** Below the last unit, the size is below `1024^last`. */
  lemma UnitIndexBelowLast(b: int, last: nat)
    ensures UnitIndex(b, last) < last ==> b < Pow1024(last)
  {
    var k := UnitIndex(b, last);
    if k < last {
      Pow1024Increasing(k, last);
      assert b < Pow1024(k + 1);
    }
  }

  /** The unit index, found by trying the units in order. */
  function UnitIndex(b: int, last: nat): (i: nat)
    ensures IsUnitIndex(b, i, last)
  {
    UnitIndexFrom(b, 0, last)
  }

  function UnitIndexFrom(b: int, i: nat, last: nat): (k: nat)
    requires i <= last
    requires i > 0 ==> b >= Pow1024(i)
    ensures IsUnitIndex(b, k, last)
    decreases last - i
  {
    if i == last || b < Pow1024(i + 1) then i else UnitIndexFrom(b, i + 1, last)
  }

  lemma RealScale(b: real, p: real, v: real)
    requires p > 0.0 && v == b / p
    ensures v < 1024.0 <==> b < 1024.0 * p
    ensures v / 1024.0 == b / (1024.0 * p)
  {
    assert v * p == b;
    if v < 1024.0 {
      assert v * p < 1024.0 * p;
    } else {
      assert v * p >= 1024.0 * p;
    }
  }

  lemma ScaledCompare(b: int, n: nat, v: real)
    requires v == b as real / Pow1024(n) as real
    ensures v < 1024.0 <==> b < Pow1024(n + 1)
    ensures v / 1024.0 == b as real / Pow1024(n + 1) as real
  {
    var p := Pow1024(n);
    assert Pow1024(n + 1) == 1024 * p;
    assert Pow1024(n + 1) as real == 1024.0 * (p as real);
    RealScale(b as real, p as real, v);
  }

  function WithDecimals(d: Display, n: nat): Display
  {
    match d
    case Scaled(v, u, _) => Scaled(v, u, n)
    case Text(_) => d
  }

  /** The `for unit in [...]` loop of backend/main.py, from unit `i` on with the current value `v`. */
  function ScaleFrom(v: real, i: nat): (r: Display)
    requires i <= 5
    ensures r.Scaled? && r.decimals == 1 && r.unit in UnitsWithPB[i..]
    ensures r.unit != "PB" ==> r.value < 1024.0
    ensures v < 1024.0 && i < 5 ==> r == Scaled(v, Units[i], 1)
    decreases 5 - i
  {
    if i == 5 then Scaled(v, "PB", 1)
    else if v < 1024.0 then Scaled(v, Units[i], 1)
    else ScaleFrom(v / 1024.0, i + 1)
  }

  lemma {:induction false} ScaleFromPicksUnitIndex(b: int, v: real, i: nat)
    requires i <= 5
    requires v == b as real / Pow1024(i) as real
    requires i > 0 ==> b >= Pow1024(i)
    ensures ScaleFrom(v, i) == Scaled(b as real / Pow1024(UnitIndex(b, 5)) as real, UnitsWithPB[UnitIndex(b, 5)], 1)
    decreases 5 - i
  {
    if i == 5 {
      assert IsUnitIndex(b, 5, 5);
      UnitIndexUnique(b, 5, UnitIndex(b, 5), 5);
    } else {
      ScaledCompare(b, i, v);
      if v < 1024.0 {
        assert IsUnitIndex(b, i, 5);
        UnitIndexUnique(b, i, UnitIndex(b, 5), 5);
      } else {
        ScaleFromPicksUnitIndex(b, v / 1024.0, i + 1);
      }
    }
  }

  /** backend/main.py `get_size`: the first unit below which the size falls, PB beyond TB. */
  function GetSize(b: int): (r: Display)
    ensures r == Scaled(b as real / Pow1024(UnitIndex(b, 5)) as real, UnitsWithPB[UnitIndex(b, 5)], 1)
  {
    ScaleFromPicksUnitIndex(b, b as real, 0);
    ScaleFrom(b as real, 0)
  }

  /** The same loop in basic_monitor.py, which has no statement after it and so yields None past TB. */
  function ScaleFromBasic(v: real, i: nat): (r: Option<Display>)
    requires i <= 5
    ensures r.Some? ==> r.value.Scaled? && r.value.decimals == 2 && r.value.unit in Units[i..] && r.value.value < 1024.0
    ensures v < 1024.0 && i < 5 ==> r == Some(Scaled(v, Units[i], 2))
    ensures i == 5 ==> r.None?
    decreases 5 - i
  {
    if i == 5 then None
    else if v < 1024.0 then Some(Scaled(v, Units[i], 2))
    else ScaleFromBasic(v / 1024.0, i + 1)
  }

  lemma {:induction false} BasicLoopMatchesBackend(v: real, i: nat)
    requires i <= 5
    ensures ScaleFromBasic(v, i) ==
              (var r := ScaleFrom(v, i); if r.unit == "PB" then None else Some(WithDecimals(r, 2)))
    decreases 5 - i
  {
    if i < 5 && v >= 1024.0 {
      BasicLoopMatchesBackend(v / 1024.0, i + 1);
    }
  }

  /** basic_monitor.py `get_size`. */
  function GetSizeBasic(b: int): (r: Option<Display>)
    ensures r.None? <==> b >= Pow1024(5)
    ensures r.Some? ==> r.value == Scaled(b as real / Pow1024(UnitIndex(b, 4)) as real, Units[UnitIndex(b, 4)], 2)
  {
    BasicLoopMatchesBackend(b as real, 0);
    ScaleFromPicksUnitIndex(b, b as real, 0);
    var k := UnitIndex(b, 5);
    UnitIndexBelowLast(b, 5);
    assert k < 5 ==> UnitIndex(b, 4) == k && UnitsWithPB[k] == Units[k] by {
      if k < 5 {
        assert IsUnitIndex(b, k, 4);
        UnitIndexUnique(b, UnitIndex(b, 4), k, 4);
      }
    }
    ScaleFromBasic(b as real, 0)
  }

  /** The two Python variants agree below 1024^5 (up to the printed precision); past it only the backend answers. */
  lemma GetSizeBasicAgrees(b: int)
    ensures b < Pow1024(5) ==> GetSizeBasic(b) == Some(WithDecimals(GetSize(b), 2))
    ensures b >= Pow1024(5) ==> GetSizeBasic(b) == None && GetSize(b).unit == "PB"
  {
    BasicLoopMatchesBackend(b as real, 0);
    UnitIndexBelowLast(b, 5);
  }

  type U64 = x: nat | x < 0x1_0000_0000_0000_0000

  /** `floor(log_1024(b))` on integers; the float `ln` of the source is replaced by its exact intent. */
  function FloorLog1024(b: nat): (i: nat)
    requires b >= 1
    ensures Pow1024(i) <= b < Pow1024(i + 1)
  {
    if b < 1024 then 0
    else
      var i := FloorLog1024(b / 1024);
      assert Pow1024(i + 1) == 1024 * Pow1024(i);
      assert Pow1024(i + 2) == 1024 * Pow1024(i + 1);
      i + 1
  }

  /** backend/src/main.rs `format_bytes`: "0 B" for zero, else the unit index capped at TB. */
  function FormatBytes(b: U64): (r: Display)
    ensures b == 0 ==> r == Text("0 B")
    ensures b > 0 ==> r == Scaled(b as real / Pow1024(UnitIndex(b, 4)) as real, Units[UnitIndex(b, 4)], 1)
  {
    if b == 0 then Text("0 B")
    else
      var l := FloorLog1024(b);
      var i := if l < 4 then l else 4;
      Pow1024Monotone(4, if l < 4 then 4 else l);
      assert IsUnitIndex(b, i, 4);
      UnitIndexUnique(b, i, UnitIndex(b, 4), 4);
      Scaled(b as real / Pow1024(i) as real, Units[i], 1)
  }

  /**
   * Rust and Python agree on every non-zero size below 1024^5; from there
   * Rust stays at TB while Python moves to PB, and at zero Rust prints the
   * fixed "0 B".
   */
  lemma FormatBytesAgreesWithGetSize(b: U64)
    ensures 0 < b < Pow1024(5) ==> FormatBytes(b) == GetSize(b)
    ensures b >= Pow1024(5) ==> FormatBytes(b).unit == "TB" && GetSize(b).unit == "PB"
    ensures b == 0 ==> FormatBytes(b) == Text("0 B") && GetSize(b) == Scaled(0.0, "B", 1)
  {
    if b == 0 {
      ZeroSizes();
    } else if b < Pow1024(5) {
      SizesAgreeBelowPB(b);
    } else {
      SizesDivergeFromPB(b);
    }
  }

  lemma ZeroSizes()
    ensures GetSize(0) == Scaled(0.0, "B", 1)
  {
    assert IsUnitIndex(0, 0, 5);
    UnitIndexUnique(0, UnitIndex(0, 5), 0, 5);
  }

  lemma SizesAgreeBelowPB(b: U64)
    requires 0 < b < Pow1024(5)
    ensures FormatBytes(b) == GetSize(b)
  {
    var k := UnitIndex(b, 5);
    assert k != 5;
    assert IsUnitIndex(b, k, 4);
    UnitIndexUnique(b, UnitIndex(b, 4), k, 4);
    assert UnitsWithPB[k] == Units[k];
  }

  lemma SizesDivergeFromPB(b: U64)
    requires b >= Pow1024(5)
    ensures FormatBytes(b).unit == "TB" && GetSize(b).unit == "PB"
  {
    UnitIndexBelowLast(b, 4);
    Pow1024Monotone(4, 5);
    UnitIndexBelowLast(b, 5);
  }
}

=== FILE: fastapi_v1.dfy ===
/**
 * backend-v1-fastapi/main.py: the timed process listing
 * (`get_processes_fast`) and the grouping of its records into applications
 * (`get_apps_grouped`).
 */
module FastApiV1 {
  import opened Wrappers
  import opened Text
  import opened Seqs
  import opened ProcessSource
  import opened Guard
  import opened Grouping

  /** One entry of the `processes` list (cpu and memory before rounding; `create_time` is the constant 0). */
  datatype FastRecord = FastRecord(
    pid: nat,
    name: string,
    username: string,
    cpuPercent: real,
    memoryPercent: real,
    memoryMb: real,
    status: string,
    numThreads: nat,
    exe: string,
    isProtected: bool)

  datatype ProcessList = ProcessList(processes: seq<FastRecord>, totalCount: nat)

  const BytesPerMb: real := 1048576.0

  /** The record built from a readable info dict, for a known name and core count. */
  function MakeRecord(p: ProcInfo, name: string, cores: nat): (r: FastRecord)
    requires cores > 0
    ensures r.pid == p.pid && r.name == name && r.username == StrOr(p.username, "N/A")
    ensures r.cpuPercent * cores as real == RealOr0(p.cpuPercent) && r.memoryPercent == RealOr0(p.memoryPercent)
    ensures p.rss.Some? ==> r.memoryMb * BytesPerMb == p.rss.value as real
    ensures p.rss.None? ==> r.memoryMb == 0.0
    ensures r.status == StrOr(p.status, "unknown") && r.numThreads == NatOr0(p.numThreads)
    ensures r.exe == "" && r.isProtected == IsSystemProcess(name)
  {
    FastRecord(
      p.pid, name, StrOr(p.username, "N/A"),
      RealOr0(p.cpuPercent) / cores as real,
      RealOr0(p.memoryPercent),
      if p.rss.Some? then p.rss.value as real / BytesPerMb else 0.0,
      StrOr(p.status, "unknown"),
      NatOr0(p.numThreads),
      "",
      IsSystemProcess(name))
  }

  /**
   * What `fetch_processes` does with one item. `cores` is `psutil.cpu_count()`;
   * dividing by None (or 0) raises, and so does `is_system_process(None)` for
   * an unreadable name: neither is a per-process exception, so the outer
   * handler ends the pass.
   */
  function FetchStep(item: PerProcess, cores: Option<nat>): (s: Step<FastRecord>)
    ensures s.Skip? <==> item.NoInfo? || (item.ReadFails? && item.err.IsPerProcess()) || (item.Info? && item.info.pid == 0)
    ensures s.Keep? ==> item.Info? && s.value.pid == item.info.pid != 0
    ensures s.Stop? <==> (item.ReadFails? && !item.err.IsPerProcess()) ||
                         (item.Info? && item.info.pid != 0 && (cores.None? || cores.value == 0 || item.info.name.None?))
    ensures s.Keep? ==> cores.Some? && cores.value > 0 && item.info.name.Some? &&
                        s.value == MakeRecord(item.info, item.info.name.value, cores.value)
  {
    match item
    case NoInfo => Skip
    case ReadFails(e) => if e.IsPerProcess() then Skip else Stop
    case Info(p) =>
      if p.pid == 0 then Skip
      else if cores.None? || cores.value == 0 then Stop
      else if p.name.None? then Stop
      else Keep(MakeRecord(p, p.name.value, cores.value))
  }

  function FetchSteps(items: seq<PerProcess>, cores: Option<nat>): seq<Step<FastRecord>>
  {
    MapSteps(items, item => FetchStep(item, cores))
  }

  /** `fetch_processes`: the records collected before the pass ends. */
  function FetchProcesses(items: seq<PerProcess>, cores: Option<nat>): (ps: seq<FastRecord>)
    ensures forall r :: r in ps ==> r.pid != 0 && r.isProtected == IsSystemProcess(r.name) && r.exe == ""
    ensures ps <= KeptAll(FetchSteps(items, cores))
  {
    var steps := FetchSteps(items, cores);
    var ps := Collect(steps);
    assert forall r :: r in ps ==> exists i :: 0 <= i < |items| && steps[i] == Keep(r);
    ps
  }

  /** `get_processes_fast`: the pass under an 8 s deadline; a missed deadline yields an empty list. */
  function GetProcessesFast(deadline: Deadline, items: seq<PerProcess>, cores: Option<nat>): (r: ProcessList)
    ensures deadline.TimedOut? ==> r == ProcessList([], 0)
    ensures r.totalCount == |r.processes|
    ensures deadline.InTime? ==> r.processes == FetchProcesses(items, cores)
  {
    match deadline
    case TimedOut => ProcessList([], 0)
    case InTime =>
      var ps := FetchProcesses(items, cores);
      ProcessList(ps, |ps|)
  }

  /** A skipped item (empty info, pid 0, or a per-process exception) does not stop or change the pass. */
  lemma SkippedItemIsIgnored(a: seq<PerProcess>, x: PerProcess, b: seq<PerProcess>, cores: Option<nat>)
    requires x.NoInfo? || (x.ReadFails? && x.err.IsPerProcess()) || (x.Info? && x.info.pid == 0)
    ensures FetchProcesses(a + [x] + b, cores) == FetchProcesses(a + b, cores)
  {
    var f := item => FetchStep(item, cores);
    MapStepsSplit(a, x, b, f);
    CollectIgnoresSkip(MapSteps(a, f), MapSteps(b, f));
  }

  /** Any other exception ends the pass: the result is what the items before it produced. */
  lemma UnexpectedErrorKeepsPrefix(a: seq<PerProcess>, b: seq<PerProcess>, cores: Option<nat>)
    requires !Stops(FetchSteps(a, cores))
    ensures FetchProcesses(a + [ReadFails(OtherError)] + b, cores) == FetchProcesses(a, cores)
  {
    var f := item => FetchStep(item, cores);
    MapStepsSplit(a, ReadFails(OtherError), b, f);
    CollectStopsAtFirstStop(MapSteps(a, f), MapSteps(b, f));
  }

  function Pids(ps: seq<FastRecord>): seq<nat>
  {
    seq(|ps|, i requires 0 <= i < |ps| => ps[i].pid)
  }

  /** The pids of the readable info dicts, in enumeration order. */
  function InfoPids(items: seq<PerProcess>): seq<nat>
  {
    if |items| == 0 then []
    else (if items[0].Info? then [items[0].info.pid] else []) + InfoPids(items[1..])
  }

  lemma {:induction false} FetchPidsFromInfo(items: seq<PerProcess>, cores: Option<nat>)
    ensures forall r :: r in FetchProcesses(items, cores) ==> r.pid in InfoPids(items)
  {
    if |items| > 0 {
      FetchPidsFromInfo(items[1..], cores);
      assert FetchSteps(items, cores) == [FetchStep(items[0], cores)] + FetchSteps(items[1..], cores);
    }
  }

  lemma PrependFreshPid(r: FastRecord, tail: seq<FastRecord>, known: seq<nat>)
    requires Distinct(Pids(tail))
    requires forall x :: x in tail ==> x.pid in known
    requires r.pid !in known
    ensures Distinct(Pids([r] + tail))
  {
    assert Pids([r] + tail) == [r.pid] + Pids(tail);
    DistinctCons(r.pid, Pids(tail));
  }

  /** The first item's contribution is computed on its own, the rest by the pass over the remaining items. */
  lemma FetchCons(items: seq<PerProcess>, cores: Option<nat>)
    requires |items| > 0
    ensures FetchStep(items[0], cores).Keep? ==>
              FetchProcesses(items, cores) == [FetchStep(items[0], cores).value] + FetchProcesses(items[1..], cores)
    ensures FetchStep(items[0], cores).Skip? ==> FetchProcesses(items, cores) == FetchProcesses(items[1..], cores)
  {
    assert FetchSteps(items, cores) == [FetchStep(items[0], cores)] + FetchSteps(items[1..], cores);
  }

  /** Distinct pids in the enumeration stay distinct in the listing. */
  lemma {:induction false} FetchKeepsPidsDistinct(items: seq<PerProcess>, cores: Option<nat>)
    requires Distinct(InfoPids(items))
    ensures Distinct(Pids(FetchProcesses(items, cores)))
  {
    if |items| > 0 {
      var rest := items[1..];
      if items[0].Info? {
        assert InfoPids(items) == [items[0].info.pid] + InfoPids(rest);
        DistinctCons(items[0].info.pid, InfoPids(rest));
      } else {
        assert InfoPids(items) == InfoPids(rest);
      }
      FetchKeepsPidsDistinct(rest, cores);
      FetchCons(items, cores);
      var step := FetchStep(items[0], cores);
      if step.Keep? {
        FetchPidsFromInfo(rest, cores);
        PrependFreshPid(step.value, FetchProcesses(rest, cores), InfoPids(rest));
      } else if step.Stop? {
        assert FetchProcesses(items, cores) == [];
      }
    }
  }

  // ---- get_apps_grouped ----

  /** Accounts whose processes are never shown as apps. */
  const SystemAccounts: seq<string> := ["SYSTEM", "N/A", "NT AUTHORITY\\SYSTEM"]

  /** Shown as part of an app: neither a system process name nor a system account; either one alone hides it. */
  predicate Listed(r: FastRecord)
  {
    !IsSystemProcess(r.name) && r.username !in SystemAccounts
  }

  /**
   * A record is hidden exactly when its name matches a system process
   * name in any letter case, or its account is one of the system accounts.
   */
  lemma ListedMeaning(r: FastRecord)
    ensures !Listed(r) <==>
              (exists s :: s in SystemProcesses && LowerCaseOf(s, r.name)) ||
              (exists j :: 0 <= j < |SystemAccounts| && SystemAccounts[j] == r.username)
  {
    SystemProcessMeaning(r.name);
    if r.username in SystemAccounts {
      var j :| 0 <= j < |SystemAccounts| && SystemAccounts[j] == r.username;
    }
  }

  /** `name.replace('.exe', '').replace('.com', '')`: every occurrence, anywhere in the name, case-sensitively. */
  function BaseName(name: string): (r: string)
    ensures |r| <= |name|
  {
    RemoveAll(RemoveAll(name, ".exe"), ".com")
  }

  /** The key only deletes from the name: each character of it comes from the name, at most as often. */
  lemma BaseNameOnlyDeletes(name: string)
    ensures multiset(BaseName(name)) <= multiset(name)
  {
    RemoveAllOnlyDeletes(name, ".exe");
    RemoveAllOnlyDeletes(RemoveAll(name, ".exe"), ".com");
  }

  /** A name with neither suffix anywhere in it is its own key. */
  lemma BaseNameWithoutSuffix(name: string)
    requires !Contains(name, ".exe") && !Contains(name, ".com")
    ensures BaseName(name) == name
  {
    RemoveAllWithoutMatch(name, ".exe");
    RemoveAllWithoutMatch(name, ".com");
  }

  function AppKey(r: FastRecord): string
  {
    BaseName(r.name)
  }

  /** A dotless stem with ".exe" appended keys to the stem itself. */
  lemma BaseNameStripsExe(stem: string)
    requires '.' !in stem
    ensures BaseName(stem + ".exe") == stem
  {
    var w := stem + ".exe";
    var n := |stem|;
    forall i | 0 <= i < n
      ensures !OccursAt(".exe", w, i)
    {
      assert w[i] == stem[i] != '.';
      assert i + 4 <= |w| ==> w[i..i + 4][0] == w[i];
    }
    assert w[n..n + 4] == ".exe";
    RemoveAllFirstOccurrence(w, ".exe", n);
    assert w[..n] == stem && w[n + 4..] == "";
    assert RemoveAll("", ".exe") == "";
    assert RemoveAll(w, ".exe") == stem;
    MissingCharNotContained(stem, ".com", '.');
    RemoveAllWithoutMatch(stem, ".com");
  }

  lemma UpperExeKept()
    ensures RemoveAll("Code.EXE", ".exe") == "Code.EXE"
  {
    MissingCharNotContained("Code.EXE", ".exe", 'x');
    RemoveAllWithoutMatch("Code.EXE", ".exe");
  }

  /** Matching is case-sensitive: an upper-case suffix stays. */
  lemma BaseNameKeepsUpperSuffix()
    ensures BaseName("Code.EXE") == "Code.EXE"
  {
    UpperExeKept();
    MissingCharNotContained("Code.EXE", ".com", 'm');
    RemoveAllWithoutMatch("Code.EXE", ".com");
  }

  /** The defaultdict's initial entry. */
  const Fresh: AppGroup := AppGroup("", [], 0.0, 0.0, 0.0, "running", 0, "", true)

  /** The loop body for a listed record: sums, pid list and count grow, a non-running status overwrites. */
  function AddMember(g: AppGroup, r: FastRecord): AppGroup
  {
    g.(name := AppKey(r),
       pids := g.pids + [r.pid],
       cpuPercent := g.cpuPercent + r.cpuPercent,
       memoryMb := g.memoryMb + r.memoryMb,
       memoryPercent := g.memoryPercent + r.memoryPercent,
       processCount := g.processCount + 1,
       status := if r.status != "running" then r.status else g.status)
  }

  function OpenApp(r: FastRecord): AppGroup
  {
    AddMember(Fresh, r)
  }

  const AppPolicy: Policy<FastRecord, AppGroup> := Policy(Listed, AppKey, OpenApp, AddMember)

  /** The final list comprehension: entries with a positive count, `is_closeable` set to True. */
  function Emit(gs: seq<AppGroup>): seq<AppGroup>
  {
    if |gs| == 0 then []
    else (if gs[0].processCount > 0 then [gs[0].(isCloseable := true)] else []) + Emit(gs[1..])
  }

  function PidOf(r: FastRecord): nat { r.pid }
  function CpuOf(r: FastRecord): real { r.cpuPercent }
  function MbOf(r: FastRecord): real { r.memoryMb }
  function MemPercentOf(r: FastRecord): real { r.memoryPercent }

  /** The status of the last member that is not running, or "running" when every member runs. */
  function LastNonRunning(ms: seq<FastRecord>): string
  {
    if |ms| == 0 then "running"
    else if ms[|ms| - 1].status != "running" then ms[|ms| - 1].status
    else LastNonRunning(ms[..|ms| - 1])
  }

  /** The reference app for key `k` and its members `ms`. */
  function AppOf(k: string, ms: seq<FastRecord>): AppGroup
  {
    AppGroup(k, Project(ms, PidOf), SumOf(ms, CpuOf), SumOf(ms, MbOf), SumOf(ms, MemPercentOf),
             LastNonRunning(ms), |ms|, "", true)
  }

  lemma {:induction false} SummaryIsAppOf(ms: seq<FastRecord>, k: string)
    requires |ms| > 0
    requires forall r :: r in ms ==> AppKey(r) == k
    ensures Summary(ms, AppPolicy) == AppOf(k, ms)
  {
    var last := ms[|ms| - 1];
    var init := ms[..|ms| - 1];
    assert ms == init + [last];
    assert AppKey(last) == k;
    SumOfSnoc(init, last, CpuOf);
    SumOfSnoc(init, last, MbOf);
    SumOfSnoc(init, last, MemPercentOf);
    ProjectSnoc(init, last, PidOf);
    assert LastNonRunning(ms) == if last.status != "running" then last.status else LastNonRunning(init);
    if |ms| == 1 {
      assert init == [];
      assert Summary(ms, AppPolicy) == AddMember(Fresh, last);
      assert Project(init, PidOf) == [];
    } else {
      assert forall r :: r in init ==> r in ms;
      SummaryIsAppOf(init, k);
      assert Summary(ms, AppPolicy) == AddMember(AppOf(k, init), last);
    }
  }

  lemma {:induction false} EmitKeepsFullGroups(gs: seq<AppGroup>)
    requires forall i :: 0 <= i < |gs| ==> gs[i].processCount > 0 && gs[i].isCloseable
    ensures Emit(gs) == gs
  {
    if |gs| > 0 {
      EmitKeepsFullGroups(gs[1..]);
      assert gs[0].(isCloseable := true) == gs[0];
      assert [gs[0]] + gs[1..] == gs;
    }
  }

  /**
   * `get_apps_grouped` on a process list: one app per key, in order of the
   * key's first listed record, each holding exactly that key's listed
   * records.
   */
  function GroupApps(processes: seq<FastRecord>): (apps: seq<AppGroup>)
    ensures |apps| == |Keys(processes, AppPolicy)|
    ensures forall i :: 0 <= i < |apps| ==>
              apps[i] == AppOf(Keys(processes, AppPolicy)[i], Members(processes, AppPolicy, Keys(processes, AppPolicy)[i]))
  {
    if |processes| == 0 then []
    else
      GroupAppsFold(processes);
      Emit(GroupBy(processes, AppPolicy))
  }

  lemma GroupAppsFold(processes: seq<FastRecord>)
    ensures var ks := Keys(processes, AppPolicy);
            Emit(GroupBy(processes, AppPolicy)) == seq(|ks|, i requires 0 <= i < |ks| => AppOf(ks[i], Members(processes, AppPolicy, ks[i])))
  {
    var ks := Keys(processes, AppPolicy);
    var gs := GroupBy(processes, AppPolicy);
    GroupByIsPerKeySummary(processes, AppPolicy);
    forall i | 0 <= i < |ks|
      ensures gs[i] == AppOf(ks[i], Members(processes, AppPolicy, ks[i]))
    {
      var ms := Members(processes, AppPolicy, ks[i]);
      forall r | r in ms
        ensures AppKey(r) == ks[i]
      {
        MembersExactly(processes, AppPolicy, ks[i], r);
      }
      SummaryIsAppOf(ms, ks[i]);
    }
    EmitKeepsFullGroups(gs);
  }

  /** `get_apps_grouped` end to end: the timed listing, then the grouping. */
  function GetAppsGrouped(deadline: Deadline, items: seq<PerProcess>, cores: Option<nat>): (apps: seq<AppGroup>)
    ensures deadline.TimedOut? ==> apps == []
    ensures deadline.InTime? ==> apps == GroupApps(FetchProcesses(items, cores))
  {
    GroupApps(GetProcessesFast(deadline, items, cores).processes)
  }

  /** No app of the endpoint holds pid 0: the listing drops it before grouping. */
  lemma GroupedAppPidsNonZero(deadline: Deadline, items: seq<PerProcess>, cores: Option<nat>)
    ensures var apps := GetAppsGrouped(deadline, items, cores);
            forall i, j :: 0 <= i < |apps| && 0 <= j < |apps[i].pids| ==> apps[i].pids[j] != 0
  {
    AppPidsNonZero(GetProcessesFast(deadline, items, cores).processes);
  }

  lemma AppPidsNonZero(ps: seq<FastRecord>)
    requires forall r :: r in ps ==> r.pid != 0
    ensures forall i, j :: 0 <= i < |GroupApps(ps)| && 0 <= j < |GroupApps(ps)[i].pids| ==> GroupApps(ps)[i].pids[j] != 0
  {
    var apps := GroupApps(ps);
    forall i, j | 0 <= i < |apps| && 0 <= j < |apps[i].pids|
      ensures apps[i].pids[j] != 0
    {
      AppShape(ps, i);
      var ms := Members(ps, AppPolicy, apps[i].name);
      assert apps[i].pids == Project(ms, PidOf);
      assert j < |ms| && apps[i].pids[j] == PidOf(ms[j]);
      MembersExactly(ps, AppPolicy, apps[i].name, ms[j]);
    }
  }

  /** Every emitted app: count equals the number of pids and is positive, no exe, closeable, status as the last non-running member. */
  lemma AppShape(processes: seq<FastRecord>, i: nat)
    requires i < |GroupApps(processes)|
    ensures var g := GroupApps(processes)[i];
            var ms := Members(processes, AppPolicy, g.name);
            && g.processCount == |g.pids| >= 1
            && g.pids == Project(ms, PidOf)
            && g.cpuPercent == SumOf(ms, CpuOf)
            && g.memoryMb == SumOf(ms, MbOf)
            && g.memoryPercent == SumOf(ms, MemPercentOf)
            && g.status == LastNonRunning(ms)
            && g.exe == "" && g.isCloseable
  {
    KeysHaveMembers(processes, AppPolicy, Keys(processes, AppPolicy)[i]);
  }

  /** Apps carry distinct names, and a listed record belongs to the app of its key and to no other. */
  lemma AppMembership(processes: seq<FastRecord>, r: FastRecord)
    ensures forall i, j :: 0 <= i < j < |GroupApps(processes)| ==> GroupApps(processes)[i].name != GroupApps(processes)[j].name
    ensures r in processes && Listed(r) ==> AppKey(r) in Keys(processes, AppPolicy)
    ensures forall i :: 0 <= i < |GroupApps(processes)| ==>
              (r in Members(processes, AppPolicy, GroupApps(processes)[i].name) <==>
               r in processes && Listed(r) && AppKey(r) == GroupApps(processes)[i].name)
  {
    KeysDistinct(processes, AppPolicy);
    forall i | 0 <= i < |GroupApps(processes)|
      ensures r in Members(processes, AppPolicy, GroupApps(processes)[i].name) <==>
              r in processes && Listed(r) && AppKey(r) == GroupApps(processes)[i].name
    {
      MembersExactly(processes, AppPolicy, GroupApps(processes)[i].name, r);
    }
    MembersExactly(processes, AppPolicy, AppKey(r), r);
    KeysHaveMembers(processes, AppPolicy, AppKey(r));
  }

  /** "running" exactly when every member runs; otherwise the status of a member after which all run. */
  lemma {:induction false} LastNonRunningMeaning(ms: seq<FastRecord>)
    ensures LastNonRunning(ms) == "running" <==> forall i :: 0 <= i < |ms| ==> ms[i].status == "running"
    ensures LastNonRunning(ms) != "running" ==>
              exists i :: 0 <= i < |ms| && ms[i].status == LastNonRunning(ms) &&
                forall j :: i < j < |ms| ==> ms[j].status == "running"
  {
    if |ms| > 0 && ms[|ms| - 1].status == "running" {
      LastNonRunningMeaning(ms[..|ms| - 1]);
    }
  }

  /** A user-owned record for the aggregation example. */
  function UserRecord(pid: nat, name: string, cpu: real, mb: real, status: string): FastRecord
  {
    FastRecord(pid, name, "alice", cpu, 0.0, mb, status, 1, "", false)
  }

  lemma ExampleRecordsListed()
    ensures Listed(Chrome1()) && Listed(Chrome2()) && Listed(Notepad())
  {
    LowerOfLowerCase("chrome.exe");
    LowerOfLowerCase("notepad.exe");
  }

  function Chrome1(): FastRecord { UserRecord(1, "chrome.exe", 10.0, 100.0, "running") }
  function Chrome2(): FastRecord { UserRecord(2, "chrome.exe", 5.0, 50.0, "stopped") }
  function Notepad(): FastRecord { UserRecord(3, "notepad.exe", 2.0, 20.0, "running") }

  lemma ExampleKeys()
    ensures AppKey(Chrome1()) == AppKey(Chrome2()) == "chrome" && AppKey(Notepad()) == "notepad"
  {
    assert "chrome.exe" == "chrome" + ".exe";
    assert "notepad.exe" == "notepad" + ".exe";
    BaseNameStripsExe("chrome");
    BaseNameStripsExe("notepad");
  }

  lemma ExampleGroups()
    ensures Keys([Chrome1(), Chrome2(), Notepad()], AppPolicy) == ["chrome", "notepad"]
    ensures Members([Chrome1(), Chrome2(), Notepad()], AppPolicy, "chrome") == [Chrome1(), Chrome2()]
    ensures Members([Chrome1(), Chrome2(), Notepad()], AppPolicy, "notepad") == [Notepad()]
  {
    ExampleRecordsListed();
    ExampleKeys();
    var c1, c2, n1 := Chrome1(), Chrome2(), Notepad();
    assert AppPolicy.admits(c1) && AppPolicy.admits(c2) && AppPolicy.admits(n1);
    assert AppPolicy.key(c1) == "chrome" && AppPolicy.key(c2) == "chrome" && AppPolicy.key(n1) == "notepad";
    ThreeRecordKeys(c1, c2, n1, AppPolicy);
    ThreeRecordFirstMembers(c1, c2, n1, AppPolicy);
    ThreeRecordLastMembers(c1, c2, n1, AppPolicy);
  }

  lemma ExampleChromeApp()
    ensures AppOf("chrome", [Chrome1(), Chrome2()]) == AppGroup("chrome", [1, 2], 15.0, 150.0, 0.0, "stopped", 2, "", true)
  {
    var c1, c2 := Chrome1(), Chrome2();
    assert [c1] + [c2] == [c1, c2];
    assert [c1, c2][..1] == [c1];
    ProjectSnoc([c1], c2, PidOf);
    assert Project([c1], PidOf) == [1];
    SumOfSnoc([c1], c2, CpuOf);
    SumOfSnoc([c1], c2, MbOf);
    SumOfSnoc([c1], c2, MemPercentOf);
  }

  lemma ExampleNotepadApp()
    ensures AppOf("notepad", [Notepad()]) == AppGroup("notepad", [3], 2.0, 20.0, 0.0, "running", 1, "", true)
  {
    assert [Notepad()] == [] + [Notepad()];
    ProjectSnoc([], Notepad(), PidOf);
    assert Project([Notepad()], PidOf) == [3];
  }

  /**
   * Two chrome processes (one stopped) and a notepad process, owned by a
   * user, give two apps: chrome with both pids, summed cpu and memory and
   * status "stopped"; notepad alone and running.
   */
  lemma AggregationExample()
    ensures GroupApps([Chrome1(), Chrome2(), Notepad()]) ==
              [AppGroup("chrome", [1, 2], 15.0, 150.0, 0.0, "stopped", 2, "", true),
               AppGroup("notepad", [3], 2.0, 20.0, 0.0, "running", 1, "", true)]
  {
    ExampleGroups();
    ExampleChromeApp();
    ExampleNotepadApp();
  }

  /** A process whose account could not be read is listed with user "N/A" and so never joins an app. */
  lemma UnreadableUserNeverListed(p: ProcInfo, cores: Option<nat>)
    requires p.username.None? || p.username == Some("")
    requires FetchStep(Info(p), cores).Keep?
    ensures !Listed(FetchStep(Info(p), cores).value)
  {
  }
}

=== FILE: grouping.dfy ===
/**
 * Grouping process records into applications. Both backends fold the
 * records, in enumeration order, into an insertion-ordered dictionary keyed
 * by a name: a record whose key is new opens a group, a record whose key is
 * known is added to that group. The fold is stated once, generically, and
 * proved equal to a reference built per key from the key's members.
 */
module Grouping {

  /** One application, as both backends report it. */
  datatype AppGroup = AppGroup(
    name: string,
    pids: seq<nat>,
    cpuPercent: real,
    memoryMb: real,
    memoryPercent: real,
    status: string,
    processCount: nat,
    exe: string,
    isCloseable: bool)

  /**
   * How a fold groups records: which records take part, the key a record
   * is filed under, the group its first member opens, and how a further
   * member is added.
   */
  datatype Policy<!R, !G> = Policy(admits: R -> bool, key: R -> string, start: R -> G, add: (G, R) -> G)

  /** An insertion-ordered dictionary (Python dict, or a HashMap visited in insertion order). */
  type Dict<G> = seq<(string, G)>

  /** Position of key `k` in `d`, or `|d|` when absent. */
  function Find<G>(d: Dict<G>, k: string): (i: nat)
    ensures i <= |d|
    ensures i < |d| ==> d[i].0 == k
    ensures forall j :: 0 <= j < i ==> d[j].0 != k
  {
    if |d| == 0 then 0 else if d[0].0 == k then 0 else 1 + Find(d[1..], k)
  }

  /** One fold step: `dict[key]` opens the entry on first sight, later records update it in place. */
  function Upsert<R, G>(d: Dict<G>, x: R, p: Policy<R, G>): Dict<G>
  {
    if !p.admits(x) then d
    else
      var k := p.key(x);
      var i := Find(d, k);
      if i == |d| then d + [(k, p.start(x))] else d[i := (k, p.add(d[i].1, x))]
  }

  function Accumulate<R, G>(rs: seq<R>, p: Policy<R, G>): Dict<G>
  {
    if |rs| == 0 then [] else Upsert(Accumulate(rs[..|rs| - 1], p), rs[|rs| - 1], p)
  }

  /** The groups of the fold, in dictionary order. */
  function GroupBy<R, G>(rs: seq<R>, p: Policy<R, G>): seq<G>
  {
    var d := Accumulate(rs, p);
    seq(|d|, i requires 0 <= i < |d| => d[i].1)
  }

  // Reference definitions, per key.

  /** The keys of the included records, each once, in order of first appearance. */
  function Keys<R, G>(rs: seq<R>, p: Policy<R, G>): seq<string>
  {
    if |rs| == 0 then []
    else
      var ks := Keys(rs[..|rs| - 1], p);
      var x := rs[|rs| - 1];
      if p.admits(x) && p.key(x) !in ks then ks + [p.key(x)] else ks
  }

  /** The included records filed under `k`, in enumeration order. */
  function Members<R, G>(rs: seq<R>, p: Policy<R, G>, k: string): seq<R>
  {
    if |rs| == 0 then []
    else
      var x := rs[|rs| - 1];
      Members(rs[..|rs| - 1], p, k) + (if p.admits(x) && p.key(x) == k then [x] else [])
  }

  /** The group that a non-empty member list builds: opened by the first, then one add per further member. */
  function Summary<R, G>(ms: seq<R>, p: Policy<R, G>): G
    requires |ms| > 0
  {
    if |ms| == 1 then p.start(ms[0]) else p.add(Summary(ms[..|ms| - 1], p), ms[|ms| - 1])
  }

  /** One more record: its key is appended when it is admitted and new. */
  lemma KeysSnoc<R, G>(rs: seq<R>, x: R, p: Policy<R, G>)
    ensures Keys(rs + [x], p) ==
              if p.admits(x) && p.key(x) !in Keys(rs, p) then Keys(rs, p) + [p.key(x)] else Keys(rs, p)
  {
    assert (rs + [x])[..|rs|] == rs;
  }

  /** One more record: it joins the members of its own key only. */
  lemma MembersSnoc<R, G>(rs: seq<R>, x: R, p: Policy<R, G>, k: string)
    ensures Members(rs + [x], p, k) == Members(rs, p, k) + (if p.admits(x) && p.key(x) == k then [x] else [])
  {
    assert (rs + [x])[..|rs|] == rs;
  }

  /** Two admitted records sharing a key followed by one with another key: two groups, in that order. */
  lemma ThreeRecordKeys<R, G>(a: R, b: R, c: R, p: Policy<R, G>)
    requires p.admits(a) && p.admits(b) && p.admits(c)
    requires p.key(a) == p.key(b) != p.key(c)
    ensures Keys([a, b, c], p) == [p.key(a), p.key(c)]
  {
    assert [] + [a] == [a] && [a] + [b] == [a, b] && [a, b] + [c] == [a, b, c];
    KeysSnoc([], a, p);
    KeysSnoc([a], b, p);
    KeysSnoc([a, b], c, p);
  }

  /** The first group holds the two records sharing its key. */
  lemma ThreeRecordFirstMembers<R, G>(a: R, b: R, c: R, p: Policy<R, G>)
    requires p.admits(a) && p.admits(b)
    requires p.key(a) == p.key(b) != p.key(c)
    ensures Members([a, b, c], p, p.key(a)) == [a, b]
  {
    var k := p.key(a);
    assert [] + [a] == [a] && [a] + [b] == [a, b] && [a, b] + [c] == [a, b, c];
    MembersSnoc([], a, p, k);
    MembersSnoc([a], b, p, k);
    MembersSnoc([a, b], c, p, k);
  }

  /** The second group holds only the record with the other key. */
  lemma ThreeRecordLastMembers<R, G>(a: R, b: R, c: R, p: Policy<R, G>)
    requires p.admits(c)
    requires p.key(a) == p.key(b) != p.key(c)
    ensures Members([a, b, c], p, p.key(c)) == [c]
  {
    var k := p.key(c);
    assert [] + [a] == [a] && [a] + [b] == [a, b] && [a, b] + [c] == [a, b, c];
    MembersSnoc([], a, p, k);
    MembersSnoc([a], b, p, k);
    MembersSnoc([a, b], c, p, k);
  }

  lemma {:induction false} KeysDistinct<R, G>(rs: seq<R>, p: Policy<R, G>)
    ensures forall i, j :: 0 <= i < j < |Keys(rs, p)| ==> Keys(rs, p)[i] != Keys(rs, p)[j]
  {
    if |rs| > 0 {
      KeysDistinct(rs[..|rs| - 1], p);
    }
  }

  /** A record is a member of `k` exactly when it is an included record of the input filed under `k`. */
  lemma {:induction false} MembersExactly<R, G>(rs: seq<R>, p: Policy<R, G>, k: string, x: R)
    ensures x in Members(rs, p, k) <==> x in rs && p.admits(x) && p.key(x) == k
  {
    if |rs| > 0 {
      MembersExactly(rs[..|rs| - 1], p, k, x);
      assert rs == rs[..|rs| - 1] + [rs[|rs| - 1]];
    }
  }

  /** A key is listed exactly when it has members. */
  lemma {:induction false} KeysHaveMembers<R, G>(rs: seq<R>, p: Policy<R, G>, k: string)
    ensures k in Keys(rs, p) <==> |Members(rs, p, k)| > 0
  {
    if |rs| > 0 {
      KeysHaveMembers(rs[..|rs| - 1], p, k);
    }
  }

  ghost predicate AgreesWithReference<R, G>(rs: seq<R>, p: Policy<R, G>, d: Dict<G>)
  {
    && |d| == |Keys(rs, p)|
    && forall i :: 0 <= i < |d| ==>
         && d[i].0 == Keys(rs, p)[i]
         && |Members(rs, p, Keys(rs, p)[i])| > 0
         && d[i].1 == Summary(Members(rs, p, Keys(rs, p)[i]), p)
  }

  lemma SummarySnoc<R, G>(ms: seq<R>, x: R, p: Policy<R, G>)
    requires |ms| > 0
    ensures Summary(ms + [x], p) == p.add(Summary(ms, p), x)
  {
    assert (ms + [x])[..|ms|] == ms;
  }

  /** The fold invariant: after each record, the dictionary holds one entry per key seen so far. */
  lemma {:induction false} AccumulateAgrees<R, G>(rs: seq<R>, p: Policy<R, G>)
    ensures AgreesWithReference(rs, p, Accumulate(rs, p))
  {
    if |rs| > 0 {
      var pre := rs[..|rs| - 1];
      var x := rs[|rs| - 1];
      AccumulateAgrees(pre, p);
      assert rs == pre + [x];
      if p.admits(x) {
        UpsertAgrees(pre, x, p);
      } else {
        assert Keys(rs, p) == Keys(pre, p);
        assert forall k :: Members(rs, p, k) == Members(pre, p, k);
      }
    }
  }

  lemma UpsertAgrees<R, G>(pre: seq<R>, x: R, p: Policy<R, G>)
    requires p.admits(x)
    requires AgreesWithReference(pre, p, Accumulate(pre, p))
    ensures AgreesWithReference(pre + [x], p, Upsert(Accumulate(pre, p), x, p))
  {
    var rs := pre + [x];
    assert rs[..|rs| - 1] == pre;
    var d := Accumulate(pre, p);
    var ks := Keys(pre, p);
    var k := p.key(x);
    var i := Find(d, k);
    KeysDistinct(pre, p);
    KeysHaveMembers(pre, p, k);
    assert forall k' :: k' != k ==> Members(rs, p, k') == Members(pre, p, k');
    assert Members(rs, p, k) == Members(pre, p, k) + [x];
    if i == |d| {
      assert k !in ks;
      assert Members(pre, p, k) == [];
      assert Keys(rs, p) == ks + [k];
      var d' := d + [(k, p.start(x))];
      assert Summary([x], p) == p.start(x);
      forall j | 0 <= j < |d'|
        ensures d'[j].0 == Keys(rs, p)[j]
        ensures |Members(rs, p, Keys(rs, p)[j])| > 0
        ensures d'[j].1 == Summary(Members(rs, p, Keys(rs, p)[j]), p)
      {
        if j < |d| {
          assert Keys(rs, p)[j] == ks[j] != k;
        }
      }
    } else {
      assert ks[i] == k;
      assert Keys(rs, p) == ks;
      SummarySnoc(Members(pre, p, k), x, p);
      var d' := d[i := (k, p.add(d[i].1, x))];
      forall j | 0 <= j < |d'|
        ensures d'[j].0 == Keys(rs, p)[j]
        ensures |Members(rs, p, Keys(rs, p)[j])| > 0
        ensures d'[j].1 == Summary(Members(rs, p, Keys(rs, p)[j]), p)
      {
        if j != i {
          assert ks[j] != k;
        }
      }
    }
  }

  /**
   * The fold equals the reference: one group per key, in order of first
   * appearance, each the summary of that key's members.
   */
  lemma GroupByIsPerKeySummary<R, G>(rs: seq<R>, p: Policy<R, G>)
    ensures |GroupBy(rs, p)| == |Keys(rs, p)|
    ensures forall i :: 0 <= i < |Keys(rs, p)| ==>
              |Members(rs, p, Keys(rs, p)[i])| > 0 &&
              GroupBy(rs, p)[i] == Summary(Members(rs, p, Keys(rs, p)[i]), p)
  {
    AccumulateAgrees(rs, p);
  }
}

=== FILE: guard.dfy ===
/**
 * The name and pid rules that decide which processes are "system" (hidden
 * from the apps view of backend-v1-fastapi/main.py) and which are
 * protected (refused by the kill handler of backend/main.py).
 */
module Guard {
  import opened Wrappers
  import opened Text

  /** Exact lower-case names hidden from the apps view (backend-v1-fastapi). */
  const SystemProcesses: set<string> := {
    "system", "registry", "smss.exe", "csrss.exe", "wininit.exe",
    "services.exe", "lsass.exe", "winlogon.exe", "dwm.exe", "svchost.exe",
    "explorer.exe", "taskeng.exe", "taskhostw.exe", "sihost.exe",
    "runtimebroker.exe", "searchindexer.exe", "searchprotocolhost.exe",
    "searchfilterhost.exe", "wmiprvse.exe", "spoolsv.exe", "conhost.exe",
    "fontdrvhost.exe", "lsaiso.exe", "memory compression", "system idle process"
  }

  /** Protected name fragments, searched in this order (backend). */
  const ProtectedProcesses: seq<string> := [
    "system", "system idle process", "registry", "smss.exe", "csrss.exe",
    "wininit.exe", "services.exe", "lsass.exe", "winlogon.exe", "dwm.exe",
    "svchost.exe", "explorer.exe"
  ]

  /** Pids at or below this bound are protected whatever their name. */
  const ReservedPidLimit: int := 10

  /** Install folders whose executables are not user apps, and the WindowsApps packages let through anyway. */
  const SystemPaths: seq<string> := ["\\windows\\", "\\program files\\windows", "\\windowsapps\\"]
  const AllowedApps: seq<string> := ["microsoft.windowsterminal", "windowscommunicationsapps"]

  /** `is_system_process`: exact membership of the lower-cased name. */
  predicate IsSystemProcess(name: string)
  {
    Lower(name) in SystemProcesses
  }

  /** A name is a system process exactly when it equals a listed name once its letters are lower-cased. */
  lemma SystemProcessMeaning(name: string)
    ensures IsSystemProcess(name) <==> exists s :: s in SystemProcesses && LowerCaseOf(s, name)
  {
    var l := Lower(name);
    forall s | LowerCaseOf(s, name)
      ensures s == l
    {
    }
    assert LowerCaseOf(l, name);
  }

  /** System-process detection ignores letter case: a name and its lower-cased form are judged alike. */
  lemma SystemProcessCaseInsensitive(name: string)
    ensures IsSystemProcess(name) <==> IsSystemProcess(Lower(name))
  {
    LowerIdempotent(name);
  }

  /** `any(f in s for f in fragments)`, scanning the fragments in order. */
  function AnyContained(fragments: seq<string>, s: string): (b: bool)
    ensures b <==> exists j :: 0 <= j < |fragments| && Contains(s, fragments[j])
  {
    if |fragments| == 0 then false
    else if Contains(s, fragments[0]) then true
    else
      assert forall j :: 1 <= j < |fragments| ==> fragments[j] == fragments[1..][j - 1];
      AnyContained(fragments[1..], s)
  }

  /** `is_protected_process`: some protected fragment is a substring of the lower-cased name, or the pid is reserved. */
  function IsProtectedProcess(name: string, pid: int): (b: bool)
    ensures b <==> (exists j :: 0 <= j < |ProtectedProcesses| && Contains(Lower(name), ProtectedProcesses[j]))
                   || pid <= ReservedPidLimit
  {
    if AnyContained(ProtectedProcesses, Lower(name)) then true
    else pid <= ReservedPidLimit
  }

  /** `is_user_app`: not a system process, and not an executable under a system folder unless it is an allowed package. */
  function IsUserApp(name: string, exe: Option<string>): (b: bool)
    ensures b ==> !IsSystemProcess(name)
    ensures (exe.None? || exe.value == "") ==> (b <==> !IsSystemProcess(name))
    ensures exe.Some? && exe.value != "" ==>
              (b <==> !IsSystemProcess(name) &&
                      !((exists j :: 0 <= j < |SystemPaths| && Contains(Lower(exe.value), SystemPaths[j])) &&
                        !(exists j :: 0 <= j < |AllowedApps| && Contains(Lower(exe.value), AllowedApps[j]))))
  {
    var lowered := Lower(name);
    LowerIdempotent(name);
    if IsSystemProcess(lowered) then false
    else if exe.Some? && exe.value != "" then
      var e := Lower(exe.value);
      !(AnyContained(SystemPaths, e) && !AnyContained(AllowedApps, e))
    else true
  }

  /** An executable under the Windows folder is no user app. */
  lemma WindowsFolderNotUserApp()
    ensures !IsUserApp("notepad.exe", Some("c:" + "\\windows\\" + "notepad.exe"))
  {
    LowerOfLowerCaseParts("c:", "\\windows\\", "notepad.exe");
    ContainsInside("c:", SystemPaths[0], "notepad.exe");
    NoAllowedAppInShortPath("c:" + "\\windows\\" + "notepad.exe");
  }

  /** Both allowed package names are 25 characters long, so a shorter path contains neither. */
  lemma NoAllowedAppInShortPath(e: string)
    requires |e| < 25
    ensures forall j :: 0 <= j < |AllowedApps| ==> !Contains(e, AllowedApps[j])
  {
  }

  /** The Windows Terminal package is let through although it lives under WindowsApps. */
  lemma TerminalPackageIsUserApp()
    ensures IsUserApp("wt.exe", Some("c:" + "\\windowsapps\\" + "microsoft.windowsterminal" + "\\wt.exe"))
  {
    TerminalPathIsLowerCase();
    TerminalPathMatches();
    WtIsNoSystemProcess();
  }

  lemma TerminalPathMatches()
    ensures Contains("c:" + "\\windowsapps\\" + "microsoft.windowsterminal" + "\\wt.exe", SystemPaths[2])
    ensures Contains("c:" + "\\windowsapps\\" + "microsoft.windowsterminal" + "\\wt.exe", AllowedApps[0])
  {
    ContainsInside("c:", SystemPaths[2], AllowedApps[0]);
    ContainsExtend("c:" + SystemPaths[2] + AllowedApps[0], SystemPaths[2], "\\wt.exe");
    ContainsInside("c:" + SystemPaths[2], AllowedApps[0], "\\wt.exe");
  }

  lemma TerminalPathIsLowerCase()
    ensures var exe := "c:" + "\\windowsapps\\" + "microsoft.windowsterminal" + "\\wt.exe"; Lower(exe) == exe
  {
    LowerOfLowerCaseParts("c:" + "\\windowsapps\\", "microsoft.windowsterminal", "\\wt.exe");
  }

  lemma WtIsNoSystemProcess()
    ensures !IsSystemProcess("wt.exe")
  {
    LowerOfLowerCase("wt.exe");
    assert "wt.exe" !in SystemProcesses;
  }

  /** A program outside the system folders is a user app. */
  lemma OwnProgramIsUserApp()
    ensures IsUserApp("code.exe", Some("c:" + "\\users\\me\\" + "code.exe"))
  {
    LowerOfLowerCaseParts("c:", "\\users\\me\\", "code.exe");
    NoSystemPathWithoutW("c:" + "\\users\\me\\" + "code.exe");
    CodeIsNoSystemProcess();
  }

  lemma NoSystemPathWithoutW(e: string)
    requires 'w' !in e
    ensures forall j :: 0 <= j < |SystemPaths| ==> !Contains(e, SystemPaths[j])
  {
    forall j | 0 <= j < |SystemPaths|
      ensures !Contains(e, SystemPaths[j])
    {
      MissingCharNotContained(e, SystemPaths[j], 'w');
    }
  }

  lemma CodeIsNoSystemProcess()
    ensures !IsSystemProcess("code.exe")
  {
    LowerOfLowerCase("code.exe");
    assert "code.exe" !in SystemProcesses;
  }

  /**
   * Protection is a substring rule: a name that merely contains "system"
   * in any letter case is protected, whatever its pid.
   */
  lemma ContainingSystemIsProtected(name: string, pid: int)
    requires Contains(Lower(name), "system")
    ensures IsProtectedProcess(name, pid)
  {
    assert ProtectedProcesses[0] == "system";
  }

  /** Without a matching fragment, protection is exactly the reserved-pid rule. */
  lemma UnmatchedNameProtectedOnlyByPid(name: string, pid: int)
    requires forall j :: 0 <= j < |ProtectedProcesses| ==> !Contains(Lower(name), ProtectedProcesses[j])
    ensures IsProtectedProcess(name, pid) <==> pid <= ReservedPidLimit
  {
  }

  /** Every protected fragment, taken as a whole name, is also a system process. */
  lemma ProtectedNamesAreSystem()
    ensures forall j :: 0 <= j < |ProtectedProcesses| ==> IsSystemProcess(ProtectedProcesses[j])
  {
    forall j | 0 <= j < |ProtectedProcesses|
      ensures IsSystemProcess(ProtectedProcesses[j])
    {
      var n := ProtectedProcesses[j];
      assert forall i :: 0 <= i < |n| ==> !IsUpper(n[i]);
      LowerOfLowerCase(n);
    }
  }

  /** Protection examples: by name whatever the pid, by low pid whatever the name, and neither. */
  lemma ProtectionExamples()
    ensures IsProtectedProcess("explorer.exe", 4000)
    ensures IsProtectedProcess("myapp.exe", 5)
    ensures !IsProtectedProcess("myapp.exe", 4000)
    ensures IsProtectedProcess("systemd", 500)
  {
    LowerOfLowerCase("explorer.exe");
    LowerOfLowerCase("systemd");
    assert ProtectedProcesses[11] == "explorer.exe";
    assert OccursAt("explorer.exe", "explorer.exe", 0);
    assert OccursAt("system", "systemd", 0);
    PlainNameUnprotected();
  }

  lemma PlainNameUnprotected()
    ensures forall j :: 0 <= j < |ProtectedProcesses| ==> !Contains(Lower("myapp.exe"), ProtectedProcesses[j])
  {
    LowerOfLowerCase("myapp.exe");
    forall j | 0 <= j < |ProtectedProcesses|
      ensures !Contains("myapp.exe", ProtectedProcesses[j])
    {
      var f := ProtectedProcesses[j];
      if 's' in f {
        MissingCharNotContained("myapp.exe", f, 's');
      } else if 'w' in f {
        MissingCharNotContained("myapp.exe", f, 'w');
      } else {
        assert f == "explorer.exe";
        MissingCharNotContained("myapp.exe", f, 'l');
      }
    }
  }
}

=== FILE: process_source.dfy ===
/**
 * The operating system as the handlers see it, reduced to oracle inputs:
 * the per-process reads of a `psutil.process_iter` enumeration, the
 * outcome of single psutil / sysinfo calls, and the decision a listing
 * pass takes for each read (skip it, keep a record, or stop the pass).
 */
module ProcessSource {
  import opened Wrappers

  /** The psutil exceptions the handlers name; ZombieProcess is a subclass of NoSuchProcess. */
  datatype OsError = NoSuchProcess | ZombieProcess | AccessDenied | OtherError {
    /** Caught by `except (NoSuchProcess, AccessDenied[, ZombieProcess])`. */
    predicate IsPerProcess()
    {
      !OtherError?
    }
    /** Caught by `except psutil.NoSuchProcess` (which includes ZombieProcess). */
    predicate IsNoSuchProcess()
    {
      NoSuchProcess? || ZombieProcess?
    }
  }

  /** The attributes `process_iter(attrs, ad_value=None)` puts in `proc.info`; None is an unreadable value. */
  datatype ProcInfo = ProcInfo(
    pid: nat,
    name: Option<string>,
    username: Option<string>,
    cpuPercent: Option<real>,
    memoryPercent: Option<real>,
    rss: Option<nat>,
    status: Option<string>,
    numThreads: Option<nat>,
    createTime: Option<real>)

  /** One item of the enumeration: its info dict, an empty (falsy) info dict, or a psutil exception. */
  datatype PerProcess = Info(info: ProcInfo) | NoInfo | ReadFails(err: OsError)

  /** A psutil call that returns a value or raises. */
  datatype Call<T> = Returns(value: T) | Fails(err: OsError)

  /** `proc.wait(timeout=3)`: the process exited, the wait timed out, or psutil raised. */
  datatype WaitResult = Exited | WaitTimedOut | WaitFails(err: OsError)

  /** `asyncio.wait_for(..., timeout=8.0)`: the worker finished in time or the deadline passed. */
  datatype Deadline = InTime | TimedOut

  /** The signals a lifecycle handler sends to a process. */
  datatype Signal = Terminate | Kill | Suspend | Resume

  /** What a listing pass does with one enumeration item. */
  datatype Step<T> = Skip | Keep(value: T) | Stop

  function MapSteps<T>(items: seq<PerProcess>, f: PerProcess -> Step<T>): (r: seq<Step<T>>)
    ensures |r| == |items|
    ensures forall i :: 0 <= i < |items| ==> r[i] == f(items[i])
  {
    if |items| == 0 then [] else [f(items[0])] + MapSteps(items[1..], f)
  }

  predicate Stops<T>(steps: seq<Step<T>>)
  {
    exists i :: 0 <= i < |steps| && steps[i].Stop?
  }

  /** Every kept record, in enumeration order, ignoring stops. */
  function KeptAll<T(!new)>(steps: seq<Step<T>>): (r: seq<T>)
    ensures forall x :: x in r <==> Keep(x) in steps
  {
    if |steps| == 0 then []
    else
      assert forall x :: Keep(x) in steps <==> steps[0] == Keep(x) || Keep(x) in steps[1..];
      (if steps[0].Keep? then [steps[0].value] else []) + KeptAll(steps[1..])
  }

  /** A pass that ends at the first stop and returns what it has collected so far. */
  function Collect<T(!new)>(steps: seq<Step<T>>): (r: seq<T>)
    ensures r <= KeptAll(steps)
    ensures !Stops(steps) ==> r == KeptAll(steps)
    ensures forall x :: x in r ==> Keep(x) in steps
  {
    if |steps| == 0 then []
    else
      assert Stops(steps[1..]) ==> Stops(steps) by {
        if Stops(steps[1..]) {
          var i :| 0 <= i < |steps[1..]| && steps[1..][i].Stop?;
          assert steps[i + 1].Stop?;
        }
      }
      match steps[0]
      case Stop => []
      case Skip => Collect(steps[1..])
      case Keep(x) => [x] + Collect(steps[1..])
  }

  /** Stopping keeps the prefix: the records kept before the first stop, and nothing after it. */
  lemma {:induction false} CollectStopsAtFirstStop<T(!new)>(a: seq<Step<T>>, b: seq<Step<T>>)
    requires !Stops(a)
    ensures Collect(a + [Stop] + b) == KeptAll(a)
    decreases |a|
  {
    if |a| == 0 {
      assert (a + [Stop] + b)[0] == Stop;
    } else {
      var w := a + [Stop] + b;
      assert w[1..] == a[1..] + [Stop] + b;
      assert !a[0].Stop?;
      CollectStopsAtFirstStop(a[1..], b);
    }
  }

  /** A skipped item has no effect on the pass: the records and the stopping point are as if it were absent. */
  lemma {:induction false} CollectIgnoresSkip<T(!new)>(a: seq<Step<T>>, b: seq<Step<T>>)
    ensures Collect(a + [Skip] + b) == Collect(a + b)
    decreases |a|
  {
    if |a| == 0 {
      assert a + [Skip] + b == [Skip] + b;
      assert ([Skip] + b)[1..] == b;
      assert a + b == b;
    } else {
      assert (a + [Skip] + b)[0] == a[0] == (a + b)[0];
      assert (a + [Skip] + b)[1..] == a[1..] + [Skip] + b;
      assert (a + b)[1..] == a[1..] + b;
      CollectIgnoresSkip(a[1..], b);
    }
  }

  /** A skip neither stops a pass nor adds a record. */
  lemma SkipChangesNothing<T(!new)>(a: seq<Step<T>>, b: seq<Step<T>>)
    ensures Stops(a + [Skip] + b) <==> Stops(a + b)
    ensures KeptAll(a + [Skip] + b) == KeptAll(a + b)
  {
    var l := a + [Skip] + b;
    var r := a + b;
    if Stops(l) {
      var i :| 0 <= i < |l| && l[i].Stop?;
      if i < |a| {
        assert r[i] == l[i];
      } else {
        assert r[i - 1] == l[i];
      }
    }
    if Stops(r) {
      var i :| 0 <= i < |r| && r[i].Stop?;
      if i < |a| {
        assert l[i] == r[i];
      } else {
        assert l[i + 1] == r[i];
      }
    }
    KeptAllSkip(a, b);
  }

  lemma {:induction false} KeptAllSkip<T(!new)>(a: seq<Step<T>>, b: seq<Step<T>>)
    ensures KeptAll(a + [Skip] + b) == KeptAll(a + b)
  {
    if |a| > 0 {
      KeptAllSkip(a[1..], b);
      assert (a + [Skip] + b)[1..] == a[1..] + [Skip] + b;
      assert (a + b)[1..] == a[1..] + b;
    } else {
      assert a + [Skip] + b == [Skip] + b;
      assert ([Skip] + b)[1..] == b;
      assert a + b == b;
    }
  }

  /** A concatenated pass stops exactly when one of its parts does. */
  lemma StopsAppend<T>(a: seq<Step<T>>, b: seq<Step<T>>)
    ensures Stops(a + b) <==> Stops(a) || Stops(b)
  {
    var w := a + b;
    if Stops(w) {
      var i :| 0 <= i < |w| && w[i].Stop?;
      if i < |a| {
        assert a[i] == w[i];
      } else {
        assert b[i - |a|] == w[i];
      }
    }
    if Stops(a) {
      var i :| 0 <= i < |a| && a[i].Stop?;
      assert w[i] == a[i];
    }
    if Stops(b) {
      var i :| 0 <= i < |b| && b[i].Stop?;
      assert w[|a| + i] == b[i];
    }
  }

  /** The records kept by a concatenated pass are those of its parts, in order. */
  lemma {:induction false} KeptAllAppend<T(!new)>(a: seq<Step<T>>, b: seq<Step<T>>)
    ensures KeptAll(a + b) == KeptAll(a) + KeptAll(b)
    decreases |a|
  {
    if |a| == 0 {
      assert a + b == b;
    } else {
      assert (a + b)[0] == a[0];
      assert (a + b)[1..] == a[1..] + b;
      KeptAllAppend(a[1..], b);
    }
  }

  lemma MapStepsAppend<T>(a: seq<PerProcess>, b: seq<PerProcess>, f: PerProcess -> Step<T>)
    ensures MapSteps(a + b, f) == MapSteps(a, f) + MapSteps(b, f)
  {
    var l := MapSteps(a + b, f);
    var r := MapSteps(a, f) + MapSteps(b, f);
    forall i | 0 <= i < |l|
      ensures l[i] == r[i]
    {
      if i < |a| {
        assert (a + b)[i] == a[i];
      } else {
        assert (a + b)[i] == b[i - |a|];
      }
    }
  }

  lemma MapStepsSplit<T>(a: seq<PerProcess>, x: PerProcess, b: seq<PerProcess>, f: PerProcess -> Step<T>)
    ensures MapSteps(a + [x] + b, f) == MapSteps(a, f) + [f(x)] + MapSteps(b, f)
    ensures MapSteps(a + b, f) == MapSteps(a, f) + MapSteps(b, f)
  {
    MapStepsAppend(a + [x], b, f);
    MapStepsAppend(a, [x], f);
    assert MapSteps([x], f) == [f(x)];
    MapStepsAppend(a, b, f);
  }
}

=== FILE: py_backend.dfy ===
/**
 * backend/main.py: the process listing behind `GET /api/processes` and the
 * decisions taken by the kill, suspend and resume endpoints.
 */
module PyBackend {
  import opened Wrappers
  import opened ProcessSource
  import opened Guard

  /** An endpoint's outcome: a JSON body, or an `HTTPException` with its status code. */
  datatype Response<T> = Ok(value: T) | Error(status: nat)

  /** One entry of `processes` (cpu, memory and create time before rounding and formatting). */
  datatype Record = Record(
    pid: nat,
    name: string,
    username: string,
    cpuPercent: real,
    memoryPercent: real,
    memoryMb: real,
    status: Option<string>,
    threads: nat,
    createTime: Option<real>,
    isProtected: bool)

  datatype Listing = Listing(count: nat, processes: seq<Record>)

  /** `datetime.fromtimestamp(t)` when the create time is truthy, else None. */
  function CreateTimeOf(t: Option<real>): (r: Option<real>)
    ensures r.Some? <==> t.Some? && t.value != 0.0
    ensures r.Some? ==> r == t
  {
    if t.Some? && t.value != 0.0 then t else None
  }

  /**
   * What the loop does with one item. The dict is indexed directly, so an
   * empty item, a missing core count, a core count of 0 and an unreadable
   * name all raise outside the per-process `except` and end the request.
   */
  function ListStep(item: PerProcess, cores: Option<nat>): (s: Step<Record>)
    ensures s.Skip? <==> item.ReadFails? && item.err.IsPerProcess()
    ensures s.Keep? <==> item.Info? && item.info.name.Some? && cores.Some? && cores.value > 0
    ensures s.Keep? ==> s.value.pid == item.info.pid && s.value.name == item.info.name.value
    ensures s.Keep? ==> s.value.username == StrOr(item.info.username, "N/A") && s.value.threads == NatOr0(item.info.numThreads)
    ensures s.Keep? ==> s.value.cpuPercent == RealOr0(item.info.cpuPercent) / cores.value as real
    ensures s.Keep? ==> s.value.memoryPercent == RealOr0(item.info.memoryPercent)
    ensures s.Keep? ==> s.value.memoryMb == if item.info.rss.Some? then item.info.rss.value as real / 1048576.0 else 0.0
    ensures s.Keep? ==> s.value.status == item.info.status && s.value.createTime == CreateTimeOf(item.info.createTime)
    ensures s.Keep? ==> s.value.isProtected == IsProtectedProcess(item.info.name.value, item.info.pid)
  {
    match item
    case NoInfo => Stop
    case ReadFails(e) => if e.IsPerProcess() then Skip else Stop
    case Info(p) =>
      if cores.None? || cores.value == 0 || p.name.None? then Stop
      else
        Keep(Record(
          p.pid, p.name.value, StrOr(p.username, "N/A"),
          RealOr0(p.cpuPercent) / cores.value as real,
          RealOr0(p.memoryPercent),
          if p.rss.Some? then p.rss.value as real / 1024.0 / 1024.0 else 0.0,
          p.status,
          NatOr0(p.numThreads),
          CreateTimeOf(p.createTime),
          IsProtectedProcess(p.name.value, p.pid)))
  }

  function ListSteps(items: seq<PerProcess>, cores: Option<nat>): seq<Step<Record>>
  {
    MapSteps(items, item => ListStep(item, cores))
  }

  /** `get_processes`: every readable process with its protection flag, or 500 when any read fails unexpectedly. */
  function GetProcesses(items: seq<PerProcess>, cores: Option<nat>): (r: Response<Listing>)
    ensures r.Error? <==> Stops(ListSteps(items, cores))
    ensures r.Error? ==> r.status == 500
    ensures r.Ok? ==> r.value.count == |r.value.processes|
    ensures r.Ok? ==> forall x :: x in r.value.processes <==> Keep(x) in ListSteps(items, cores)
    ensures r.Ok? ==> forall x :: x in r.value.processes ==> x.isProtected == IsProtectedProcess(x.name, x.pid)
  {
    var steps := ListSteps(items, cores);
    if Stops(steps) then Error(500)
    else
      var ps := KeptAll(steps);
      Ok(Listing(|ps|, ps))
  }

  /** An empty enumeration lists nothing. */
  lemma GetProcessesEmpty(cores: Option<nat>)
    ensures GetProcesses([], cores) == Ok(Listing(0, []))
  {
    assert ListSteps([], cores) == [];
  }

  /** One item: its record when kept, nothing when skipped, 500 when it stops the request. */
  lemma GetProcessesSingle(item: PerProcess, cores: Option<nat>)
    ensures GetProcesses([item], cores) ==
              match ListStep(item, cores)
              case Keep(x) => Ok(Listing(1, [x]))
              case Skip => Ok(Listing(0, []))
              case Stop => Error(500)
  {
    var s := ListStep(item, cores);
    var steps := ListSteps([item], cores);
    assert steps == [s];
    assert KeptAll(steps) == (if s.Keep? then [s.value] else []) + KeptAll(steps[1..]);
    assert steps[1..] == [];
    if s.Stop? {
      assert steps[0].Stop?;
    } else {
      assert !Stops(steps);
      var kept := KeptAll(steps);
      assert KeptAll(steps[1..]) == [];
      if s.Keep? {
        assert kept == [s.value];
      } else {
        assert kept == [];
      }
    }
  }

  /**
   * Listing two stretches of the enumeration one after the other gives their
   * records concatenated, so the response keeps enumeration order and lists
   * each kept item once; a failure in either stretch fails the request.
   */
  lemma GetProcessesAppend(a: seq<PerProcess>, b: seq<PerProcess>, cores: Option<nat>)
    ensures GetProcesses(a + b, cores).Ok? <==> GetProcesses(a, cores).Ok? && GetProcesses(b, cores).Ok?
    ensures GetProcesses(a + b, cores).Ok? ==>
              GetProcesses(a + b, cores).value.processes ==
              GetProcesses(a, cores).value.processes + GetProcesses(b, cores).value.processes
  {
    var f := (item: PerProcess) => ListStep(item, cores);
    var sa, sb := ListSteps(a, cores), ListSteps(b, cores);
    MapStepsAppend(a, b, f);
    assert ListSteps(a + b, cores) == sa + sb;
    StopsAppend(sa, sb);
    KeptAllAppend(sa, sb);
  }

  /** A per-process error (the process vanished or is not readable) is passed over as if the process were absent. */
  lemma GetProcessesSkipsPerProcessError(a: seq<PerProcess>, e: OsError, b: seq<PerProcess>, cores: Option<nat>)
    requires e.IsPerProcess()
    ensures GetProcesses(a + [ReadFails(e)] + b, cores) == GetProcesses(a + b, cores)
  {
    var f := (item: PerProcess) => ListStep(item, cores);
    MapStepsSplit(a, ReadFails(e), b, f);
    assert ListSteps(a + [ReadFails(e)] + b, cores) == ListSteps(a, cores) + [Skip] + ListSteps(b, cores);
    SkipChangesNothing(ListSteps(a, cores), ListSteps(b, cores));
  }

  /** The request fails exactly when some item is empty, unreadable for another reason, or nameless, or (with items) the core count is unusable. */
  lemma GetProcessesFailsExactly(items: seq<PerProcess>, cores: Option<nat>)
    ensures GetProcesses(items, cores).Error? <==>
              exists i :: 0 <= i < |items| &&
                (items[i].NoInfo? || items[i] == ReadFails(OtherError) ||
                 (items[i].Info? && (items[i].info.name.None? || cores.None? || cores == Some(0))))
  {
    var steps := ListSteps(items, cores);
    if Stops(steps) {
      var i :| 0 <= i < |steps| && steps[i].Stop?;
      assert steps[i] == ListStep(items[i], cores);
    }
    if exists i :: 0 <= i < |items| &&
         (items[i].NoInfo? || items[i] == ReadFails(OtherError) ||
          (items[i].Info? && (items[i].info.name.None? || cores.None? || cores == Some(0)))) {
      var i :| 0 <= i < |items| &&
         (items[i].NoInfo? || items[i] == ReadFails(OtherError) ||
          (items[i].Info? && (items[i].info.name.None? || cores.None? || cores == Some(0))));
      assert steps[i].Stop?;
    }
  }

  /** Unlike the other listings, pid 0 and low pids are kept, and flagged protected. */
  lemma LowPidsListedAsProtected(p: ProcInfo, cores: nat)
    requires p.name.Some? && cores > 0 && p.pid <= ReservedPidLimit
    ensures ListStep(Info(p), Some(cores)).Keep?
    ensures ListStep(Info(p), Some(cores)).value.isProtected
  {
  }

  // ---- kill / suspend / resume ----

  /** The success bodies the lifecycle endpoints return. */
  datatype Note = Terminated | TerminationInitiated | Suspended | Resumed

  /** `{"success": True, "message": ..., ["force": ...]}`; `force` is echoed by the kill endpoint only. */
  datatype Success = Success(note: Note, force: Option<bool>)

  /** The response together with the signals the handler sent. */
  datatype Handled = Handled(response: Response<Success>, sent: seq<Signal>)

  /** The exceptions that can reach the kill handler's `except` chain. */
  datatype Raised = Os(err: OsError) | WaitExpired | Http(code: nat)

  /**
   * The kill handler's `except` chain in order: NoSuchProcess (and its
   * subclass ZombieProcess) → 404, AccessDenied → 403, TimeoutExpired →
   * success with "termination initiated", anything else → 500.
   */
  function KillExcept(e: Raised, force: bool): (r: Response<Success>)
    ensures r.Ok? <==> e.WaitExpired?
    ensures r.Ok? ==> r.value == Success(TerminationInitiated, Some(force))
    ensures e.Os? ==> r == Error(OsStatus(e.err))
    ensures e.Http? ==> r == Error(500)
  {
    match e
    case Os(NoSuchProcess) => Error(404)
    case Os(ZombieProcess) => Error(404)
    case Os(AccessDenied) => Error(403)
    case Os(OtherError) => Error(500)
    case WaitExpired => Ok(Success(TerminationInitiated, Some(force)))
    case Http(_) => Error(500)
  }

  /** The signal `kill_process` sends: `proc.kill()` when forced, `proc.terminate()` otherwise. */
  function KillSignal(force: bool): Signal
  {
    if force then Kill else Terminate
  }

  /** The errors a psutil call reports to the client, as the suspend and resume handlers map them. */
  function OsStatus(e: OsError): (code: nat)
    ensures code == 404 <==> e.IsNoSuchProcess()
    ensures code == 403 <==> e.AccessDenied?
    ensures code == 500 <==> e.OtherError?
  {
    if e.IsNoSuchProcess() then 404 else if e.AccessDenied? then 403 else 500
  }

  /**
   * `kill_process` as written. `name` is `psutil.Process(pid).name()`,
   * `signal` the outcome of the terminate/kill call, `wait` that of
   * `proc.wait(timeout=3)`. The 403 raised for a protected process is
   * inside the `try`, so the generic handler turns it into a 500.
   */
  function KillProcess(pid: int, force: bool, name: Call<string>, signal: Call<()>, wait: WaitResult): (h: Handled)
    ensures h.response.Ok? ==> h.response.value.force == Some(force)
    ensures h.sent != [] <==> name.Returns? && !IsProtectedProcess(name.value, pid)
    ensures h.sent != [] ==> h.sent == [KillSignal(force)]
    ensures name.Returns? && IsProtectedProcess(name.value, pid) ==> h.response == Error(500)
    ensures h.response == Ok(Success(Terminated, Some(force))) <==>
              name.Returns? && !IsProtectedProcess(name.value, pid) && signal.Returns? && wait.Exited?
    ensures name.Fails? ==> h == Handled(Error(OsStatus(name.err)), [])
    ensures name.Returns? && !IsProtectedProcess(name.value, pid) && signal.Fails? ==>
              h.response == Error(OsStatus(signal.err))
    ensures name.Returns? && !IsProtectedProcess(name.value, pid) && signal.Returns? && wait.WaitFails? ==>
              h.response == Error(OsStatus(wait.err))
    ensures name.Returns? && !IsProtectedProcess(name.value, pid) && signal.Returns? && wait.WaitTimedOut? ==>
              h.response == Ok(Success(TerminationInitiated, Some(force)))
  {
    match name
    case Fails(e) => Handled(KillExcept(Os(e), force), [])
    case Returns(n) =>
      if IsProtectedProcess(n, pid) then Handled(KillExcept(Http(403), force), [])
      else
        var sent := [KillSignal(force)];
        match signal
        case Fails(e) => Handled(KillExcept(Os(e), force), sent)
        case Returns(_) =>
          match wait
          case Exited => Handled(Ok(Success(Terminated, Some(force))), sent)
          case WaitTimedOut => Handled(KillExcept(WaitExpired, force), sent)
          case WaitFails(e) => Handled(KillExcept(Os(e), force), sent)
  }

  /** `kill_process` with the protection refusal reaching the client as the 403 the handler raises. */
  function KillProcessIntended(pid: int, force: bool, name: Call<string>, signal: Call<()>, wait: WaitResult): (h: Handled)
    ensures name.Returns? && IsProtectedProcess(name.value, pid) ==> h == Handled(Error(403), [])
    ensures !(name.Returns? && IsProtectedProcess(name.value, pid)) ==> h == KillProcess(pid, force, name, signal, wait)
  {
    if name.Returns? && IsProtectedProcess(name.value, pid) then Handled(Error(403), [])
    else KillProcess(pid, force, name, signal, wait)
  }

  /** The as-written handler answers 500 to a refused request for a protected process, never 403 for it. */
  lemma ProtectedKillAnswers500()
    ensures KillProcess(4, false, Returns("notepad.exe"), Returns(()), Exited).response == Error(500)
    ensures KillProcessIntended(4, false, Returns("notepad.exe"), Returns(()), Exited).response == Error(403)
  {
  }

  /** Neither version signals a protected process; both agree everywhere else. */
  lemma KillVersionsAgreeOffProtection(pid: int, force: bool, name: Call<string>, signal: Call<()>, wait: WaitResult)
    ensures KillProcessIntended(pid, force, name, signal, wait).sent == KillProcess(pid, force, name, signal, wait).sent
    ensures KillProcessIntended(pid, force, name, signal, wait).response.Ok? <==> KillProcess(pid, force, name, signal, wait).response.Ok?
  {
  }

  /** A timed-out wait still reports success, with the signal already sent. */
  lemma KillTimeoutStillSucceeds(pid: int, force: bool, n: string)
    requires !IsProtectedProcess(n, pid)
    ensures KillProcess(pid, force, Returns(n), Returns(()), WaitTimedOut) ==
              Handled(Ok(Success(TerminationInitiated, Some(force))), [KillSignal(force)])
  {
  }

  /** A protected target is refused whatever the signal and wait would have done. */
  lemma KillRefusalIgnoresLaterCalls(pid: int, force: bool, n: string, s1: Call<()>, s2: Call<()>, w1: WaitResult, w2: WaitResult)
    requires IsProtectedProcess(n, pid)
    ensures KillProcess(pid, force, Returns(n), s1, w1) == KillProcess(pid, force, Returns(n), s2, w2)
  {
  }

  /**
   * `suspend_process` / `resume_process`: look the process up, send the
   * signal; no protection check. `lookup` is `psutil.Process(pid)`, `call`
   * the outcome of `proc.suspend()` or `proc.resume()`.
   */
  function SignalProcess(sig: Signal, lookup: Call<()>, call: Call<()>): (h: Handled)
    requires sig.Suspend? || sig.Resume?
    ensures h.response.Ok? <==> lookup.Returns? && call.Returns?
    ensures h.response.Ok? ==> h.response.value == Success(if sig.Suspend? then Suspended else Resumed, None)
    ensures h.sent == (if lookup.Returns? then [sig] else [])
    ensures h.response.Error? ==> h.response.status == OsStatus(if lookup.Fails? then lookup.err else call.err)
  {
    match lookup
    case Fails(e) => Handled(Error(OsStatus(e)), [])
    case Returns(_) =>
      match call
      case Fails(e) => Handled(Error(OsStatus(e)), [sig])
      case Returns(_) => Handled(Ok(Success(if sig.Suspend? then Suspended else Resumed, None)), [sig])
  }

  function SuspendProcess(lookup: Call<()>, call: Call<()>): (h: Handled)
    ensures h.response.Ok? <==> lookup.Returns? && call.Returns?
    ensures h.response.Ok? ==> h.response.value.note == Suspended
    ensures lookup.Returns? ==> h.sent == [Suspend]
  {
    SignalProcess(Suspend, lookup, call)
  }

  function ResumeProcess(lookup: Call<()>, call: Call<()>): (h: Handled)
    ensures h.response.Ok? <==> lookup.Returns? && call.Returns?
    ensures h.response.Ok? ==> h.response.value.note == Resumed
    ensures lookup.Returns? ==> h.sent == [Resume]
  {
    SignalProcess(Resume, lookup, call)
  }
}

=== FILE: rust_backend.dfy ===
/**
 * backend/src/main.rs: status names, the process and app listings built
 * from a sysinfo snapshot, and the kill / kill-app handlers with the
 * suspend and resume stubs.
 */
module RustBackend {
  import opened Wrappers
  import opened Seqs
  import opened Grouping
  import opened Guard

  /** `sysinfo::ProcessStatus`. */
  datatype ProcessStatus =
    | Run | Sleep | Stop | Zombie | Dead
    | Idle | Tracing | Wakekill | Waking | Parked | LockBlocked | UninterruptibleDiskSleep
    | Unknown(code: nat)

  /** The five statuses `get_process_status` names; every other one is "unknown". */
  predicate Named(s: ProcessStatus)
  {
    s.Run? || s.Sleep? || s.Stop? || s.Zombie? || s.Dead?
  }

  /** `get_process_status`. */
  function StatusName(s: ProcessStatus): (r: string)
    ensures r == "unknown" <==> !Named(s)
    ensures r == "running" <==> s.Run?
    ensures s.Sleep? ==> r == "sleeping"
    ensures s.Stop? ==> r == "stopped"
    ensures s.Zombie? ==> r == "zombie"
    ensures s.Dead? ==> r == "dead"
  {
    match s
    case Run => "running"
    case Sleep => "sleeping"
    case Stop => "stopped"
    case Zombie => "zombie"
    case Dead => "dead"
    case _ => "unknown"
  }

  /** Distinct named statuses get distinct names. */
  lemma StatusNamesDistinct(a: ProcessStatus, b: ProcessStatus)
    requires Named(a) && Named(b) && a != b
    ensures StatusName(a) != StatusName(b)
  {
  }

  /** What sysinfo reports for one process after the second refresh. */
  datatype Snapshot = Snapshot(
    pid: nat,
    name: string,
    memory: nat,
    cpuUsage: real,
    status: ProcessStatus,
    startTime: nat,
    exe: Option<string>,
    cwd: Option<string>,
    cmd: seq<string>)

  /** The machine-wide values the handlers divide by. */
  datatype Machine = Machine(totalMemory: nat, cpuCount: nat)

  /** `ProcessData`. */
  datatype ProcessData = ProcessData(
    pid: nat,
    name: string,
    username: string,
    cpuPercent: real,
    memoryPercent: real,
    memoryMb: real,
    status: string,
    numThreads: nat,
    createTime: nat,
    exe: string,
    cwd: string,
    cmdline: seq<string>,
    isProtected: bool)

  datatype ProcessList = ProcessList(processes: seq<ProcessData>, totalCount: nat)

  /** `map(display).unwrap_or_else(|| "N/A")`: the path, or "N/A" when sysinfo has none. */
  function PathOr(p: Option<string>): (r: string)
    ensures p.Some? ==> r == p.value
    ensures p.None? ==> r == "N/A"
  {
    if p.Some? then p.value else "N/A"
  }

  /** The per-process values both listings compute: cpu divided by the core count, memory in MB and in percent of the total. */
  function Measure(m: Machine, s: Snapshot): (d: ProcessData)
    requires m.totalMemory > 0 && m.cpuCount > 0
    ensures d.pid == s.pid && d.name == s.name && d.status == StatusName(s.status)
    ensures d.cpuPercent * m.cpuCount as real == s.cpuUsage
    ensures d.memoryPercent * m.totalMemory as real == s.memory as real * 100.0
    ensures d.memoryMb * 1048576.0 == s.memory as real
    ensures d.exe == PathOr(s.exe) && d.cwd == PathOr(s.cwd) && d.cmdline == s.cmd && d.createTime == s.startTime
    ensures d.username == "N/A" && d.numThreads == 0 && !d.isProtected
  {
    ProcessData(
      s.pid, s.name, "N/A",
      s.cpuUsage / m.cpuCount as real,
      s.memory as real / m.totalMemory as real * 100.0,
      s.memory as real / (1024.0 * 1024.0),
      StatusName(s.status), 0, s.startTime,
      PathOr(s.exe), PathOr(s.cwd), s.cmd, false)
  }

  function MeasureAll(m: Machine, snaps: seq<Snapshot>): (ds: seq<ProcessData>)
    requires m.totalMemory > 0 && m.cpuCount > 0
    ensures |ds| == |snaps|
    ensures forall i :: 0 <= i < |snaps| ==> ds[i] == Measure(m, snaps[i])
  {
    seq(|snaps|, i requires 0 <= i < |snaps| => Measure(m, snaps[i]))
  }

  function CpuOf(d: ProcessData): real { d.cpuPercent }

  /** `get_processes`: every process, sorted by cpu, highest first (a stable sort). */
  function GetProcesses(m: Machine, snaps: seq<Snapshot>): (r: ProcessList)
    requires m.totalMemory > 0 && m.cpuCount > 0
    ensures r.totalCount == |r.processes| == |snaps|
    ensures multiset(r.processes) == multiset(MeasureAll(m, snaps))
    ensures SortedDesc(r.processes, CpuOf)
  {
    var ps := SortDesc(MeasureAll(m, snaps), CpuOf);
    assert |ps| == |multiset(ps)| == |multiset(MeasureAll(m, snaps))|;
    ProcessList(ps, |ps|)
  }

  /** Processes with equal cpu keep their enumeration order, and none is flagged protected. */
  lemma GetProcessesStableAndUnprotected(m: Machine, snaps: seq<Snapshot>, c: real)
    requires m.totalMemory > 0 && m.cpuCount > 0
    ensures WithKey(GetProcesses(m, snaps).processes, CpuOf, c) == WithKey(MeasureAll(m, snaps), CpuOf, c)
    ensures forall d :: d in GetProcesses(m, snaps).processes ==> !d.isProtected
  {
    SortDescStable(MeasureAll(m, snaps), CpuOf, c);
    forall d | d in GetProcesses(m, snaps).processes
      ensures !d.isProtected
    {
      assert d in multiset(MeasureAll(m, snaps));
    }
  }

  // ---- get_apps ----

  function Everyone(d: ProcessData): bool { true }
  function NameOf(d: ProcessData): string { d.name }

  /** `or_insert_with`: the first member opens the app, fixing its exe; the status is always "running". */
  function OpenApp(d: ProcessData): AppGroup
  {
    AppGroup(d.name, [d.pid], d.cpuPercent, d.memoryMb, d.memoryPercent, "running", 1, d.exe, true)
  }

  /** `and_modify`: a further member adds its pid, cpu and memory. */
  function JoinApp(g: AppGroup, d: ProcessData): AppGroup
  {
    g.(pids := g.pids + [d.pid],
       cpuPercent := g.cpuPercent + d.cpuPercent,
       memoryMb := g.memoryMb + d.memoryMb,
       memoryPercent := g.memoryPercent + d.memoryPercent,
       processCount := g.processCount + 1)
  }

  /** Every process takes part, filed under its exact name (no case folding, no suffix stripping). */
  const AppPolicy: Policy<ProcessData, AppGroup> := Policy(Everyone, NameOf, OpenApp, JoinApp)

  function PidOf(d: ProcessData): nat { d.pid }
  function MbOf(d: ProcessData): real { d.memoryMb }
  function MemPercentOf(d: ProcessData): real { d.memoryPercent }
  function AppCpu(g: AppGroup): real { g.cpuPercent }

  /** The reference app for name `k` and its members `ms`. */
  function AppOf(k: string, ms: seq<ProcessData>): AppGroup
    requires |ms| > 0
  {
    AppGroup(k, Project(ms, PidOf), SumOf(ms, CpuOf), SumOf(ms, MbOf), SumOf(ms, MemPercentOf),
             "running", |ms|, ms[0].exe, true)
  }

  lemma {:induction false} SummaryIsAppOf(ms: seq<ProcessData>, k: string)
    requires |ms| > 0
    requires forall d :: d in ms ==> d.name == k
    ensures Summary(ms, AppPolicy) == AppOf(k, ms)
  {
    var last := ms[|ms| - 1];
    var init := ms[..|ms| - 1];
    assert ms == init + [last];
    if |ms| > 1 {
      assert forall d :: d in init ==> d in ms;
      SummaryIsAppOf(init, k);
      assert init[0] == ms[0];
    }
    SumOfSnoc(init, last, CpuOf);
    SumOfSnoc(init, last, MbOf);
    SumOfSnoc(init, last, MemPercentOf);
    ProjectSnoc(init, last, PidOf);
  }

  /** The per-name apps, in order of first appearance. */
  function AppsByName(ds: seq<ProcessData>): (gs: seq<AppGroup>)
    ensures |gs| == |Keys(ds, AppPolicy)|
    ensures forall i :: 0 <= i < |gs| ==>
              |Members(ds, AppPolicy, Keys(ds, AppPolicy)[i])| > 0 &&
              gs[i] == AppOf(Keys(ds, AppPolicy)[i], Members(ds, AppPolicy, Keys(ds, AppPolicy)[i]))
  {
    GroupByAppOf(ds);
    GroupBy(ds, AppPolicy)
  }

  lemma GroupByAppOf(ds: seq<ProcessData>)
    ensures |GroupBy(ds, AppPolicy)| == |Keys(ds, AppPolicy)|
    ensures forall i :: 0 <= i < |Keys(ds, AppPolicy)| ==>
              |Members(ds, AppPolicy, Keys(ds, AppPolicy)[i])| > 0 &&
              GroupBy(ds, AppPolicy)[i] == AppOf(Keys(ds, AppPolicy)[i], Members(ds, AppPolicy, Keys(ds, AppPolicy)[i]))
  {
    var ks := Keys(ds, AppPolicy);
    GroupByIsPerKeySummary(ds, AppPolicy);
    forall i | 0 <= i < |ks|
      ensures GroupBy(ds, AppPolicy)[i] == AppOf(ks[i], Members(ds, AppPolicy, ks[i]))
    {
      var ms := Members(ds, AppPolicy, ks[i]);
      forall d | d in ms
        ensures d.name == ks[i]
      {
        MembersExactly(ds, AppPolicy, ks[i], d);
      }
      SummaryIsAppOf(ms, ks[i]);
    }
  }

  datatype AppsList = AppsList(apps: seq<AppGroup>, totalCount: nat)

  /**
   * `get_apps`: one app per distinct process name, sorted by summed cpu,
   * highest first. The HashMap's visiting order is taken to be insertion
   * order; the contract holds for any order, since it fixes the result only
   * up to a permutation that keeps it sorted.
   */
  function GetApps(m: Machine, snaps: seq<Snapshot>): (r: AppsList)
    requires m.totalMemory > 0 && m.cpuCount > 0
    ensures r.totalCount == |r.apps| == |Keys(MeasureAll(m, snaps), AppPolicy)|
    ensures multiset(r.apps) == multiset(AppsByName(MeasureAll(m, snaps)))
    ensures SortedDesc(r.apps, AppCpu)
  {
    var apps := SortDesc(AppsByName(MeasureAll(m, snaps)), AppCpu);
    assert |apps| == |multiset(apps)| == |multiset(AppsByName(MeasureAll(m, snaps)))|;
    AppsList(apps, |apps|)
  }

  /** Every app holds exactly the processes of its name: one pid each, count == |pids|, status "running", exe of the first member. */
  lemma AppsHoldTheirProcesses(m: Machine, snaps: seq<Snapshot>)
    requires m.totalMemory > 0 && m.cpuCount > 0
    ensures forall g :: g in GetApps(m, snaps).apps ==>
              var ms := Members(MeasureAll(m, snaps), AppPolicy, g.name);
              && |ms| > 0
              && g.pids == Project(ms, PidOf)
              && g.processCount == |g.pids|
              && g.cpuPercent == SumOf(ms, CpuOf)
              && g.status == "running" && g.isCloseable
              && g.exe == ms[0].exe
              && forall d :: d in ms <==> d in MeasureAll(m, snaps) && d.name == g.name
  {
    forall g | g in GetApps(m, snaps).apps
      ensures var ms := Members(MeasureAll(m, snaps), AppPolicy, g.name);
              && |ms| > 0
              && g.pids == Project(ms, PidOf)
              && g.processCount == |g.pids|
              && g.cpuPercent == SumOf(ms, CpuOf)
              && g.status == "running" && g.isCloseable
              && g.exe == ms[0].exe
              && forall d :: d in ms <==> d in MeasureAll(m, snaps) && d.name == g.name
    {
      var ds := MeasureAll(m, snaps);
      var gs := AppsByName(ds);
      assert g in multiset(gs);
      var i :| 0 <= i < |gs| && gs[i] == g;
      forall d
        ensures d in Members(ds, AppPolicy, g.name) <==> d in ds && d.name == g.name
      {
        MembersExactly(ds, AppPolicy, g.name, d);
      }
    }
  }

  /** Every process is in the app of its name, and app names are distinct. */
  lemma EveryProcessHasItsApp(m: Machine, snaps: seq<Snapshot>)
    requires m.totalMemory > 0 && m.cpuCount > 0
    ensures forall s :: s in snaps ==> s.name in Keys(MeasureAll(m, snaps), AppPolicy)
    ensures Distinct(Keys(MeasureAll(m, snaps), AppPolicy))
  {
    var ds := MeasureAll(m, snaps);
    KeysDistinct(ds, AppPolicy);
    forall s | s in snaps
      ensures s.name in Keys(ds, AppPolicy)
    {
      var i :| 0 <= i < |snaps| && snaps[i] == s;
      MembersExactly(ds, AppPolicy, s.name, ds[i]);
      KeysHaveMembers(ds, AppPolicy, s.name);
    }
  }

  // ---- kill, kill app, suspend, resume ----

  /** What the locked snapshot holds for a pid: its name, and whether `process.kill()` reports success. */
  datatype Target = Target(name: string, killSucceeds: bool)

  datatype Message = ProcessTerminated(name: string) | TerminatedCount(count: nat) | SuspendNotImplemented | ResumeNotImplemented

  /** `Result<Json<SuccessResponse>, StatusCode>`. */
  datatype Outcome = Ok(message: Message) | Err(status: nat)

  /** `kill_process`: 404 for an unknown pid, 403 when `kill()` fails; no protection check. */
  function KillProcess(pid: nat, table: map<nat, Target>): (r: Outcome)
    ensures r.Ok? <==> pid in table && table[pid].killSucceeds
    ensures r == Err(404) <==> pid !in table
    ensures r.Ok? ==> r.message == ProcessTerminated(table[pid].name)
    ensures r.Err? ==> r.status in {403, 404}
  {
    if pid !in table then Err(404)
    else if table[pid].killSucceeds then Ok(ProcessTerminated(table[pid].name))
    else Err(403)
  }

  /** The number of list entries whose single kill would succeed. */
  function Killed(pids: seq<nat>, table: map<nat, Target>): nat
  {
    if |pids| == 0 then 0
    else Killed(pids[..|pids| - 1], table) + (if KillProcess(pids[|pids| - 1], table).Ok? then 1 else 0)
  }

  /** `kill_app`: try each listed pid in turn, count the successful kills, succeed when any did. */
  method KillApp(pids: seq<nat>, table: map<nat, Target>) returns (r: Outcome, killed: nat)
    ensures killed == Killed(pids, table)
    ensures r.Ok? <==> killed > 0
    ensures r.Ok? ==> r.message == TerminatedCount(killed)
    ensures r.Err? ==> r.status == 403
  {
    killed := 0;
    var i := 0;
    while i < |pids|
      invariant 0 <= i <= |pids|
      invariant killed == Killed(pids[..i], table)
    {
      var pid := pids[i];
      if pid in table {
        if table[pid].killSucceeds {
          killed := killed + 1;
        }
      }
      assert pids[..i + 1][..i] == pids[..i];
      i := i + 1;
    }
    assert pids[..i] == pids;
    if killed > 0 {
      r := Ok(TerminatedCount(killed));
    } else {
      r := Err(403);
    }
  }

  /** The count is positive exactly when some listed pid can be killed, and never exceeds the list's length. */
  lemma {:induction false} KilledMeaning(pids: seq<nat>, table: map<nat, Target>)
    ensures Killed(pids, table) <= |pids|
    ensures Killed(pids, table) > 0 <==> exists i :: 0 <= i < |pids| && pids[i] in table && table[pids[i]].killSucceeds
  {
    if |pids| > 0 {
      var init := pids[..|pids| - 1];
      KilledMeaning(init, table);
      if exists i :: 0 <= i < |init| && init[i] in table && table[init[i]].killSucceeds {
        var i :| 0 <= i < |init| && init[i] in table && table[init[i]].killSucceeds;
        assert pids[i] == init[i];
      }
      if exists i :: 0 <= i < |pids| && pids[i] in table && table[pids[i]].killSucceeds {
        var i :| 0 <= i < |pids| && pids[i] in table && table[pids[i]].killSucceeds;
        if i < |init| {
          assert init[i] == pids[i];
        }
      }
    }
  }

  /** Pids that are absent, or whose kill fails, do not count. */
  lemma {:induction false} KilledSkipsFailures(a: seq<nat>, pid: nat, b: seq<nat>, table: map<nat, Target>)
    requires !(pid in table && table[pid].killSucceeds)
    ensures Killed(a + [pid] + b, table) == Killed(a + b, table)
  {
    if |b| == 0 {
      assert (a + [pid] + b)[..|a|] == a;
      assert a + b == a;
    } else {
      var b' := b[..|b| - 1];
      var last := b[|b| - 1];
      KilledSkipsFailures(a, pid, b', table);
      assert (a + [pid] + b)[..|a + [pid] + b| - 1] == a + [pid] + b';
      assert (a + b)[..|a + b| - 1] == a + b';
    }
  }

  /** The suspend stub: success, nothing sent, whatever the pid. */
  function SuspendProcess(pid: nat): (r: Outcome)
    ensures r == Ok(SuspendNotImplemented)
  {
    Ok(SuspendNotImplemented)
  }

  /** The resume stub: success, nothing sent, whatever the pid. */
  function ResumeProcess(pid: nat): (r: Outcome)
    ensures r == Ok(ResumeNotImplemented)
  {
    Ok(ResumeNotImplemented)
  }
}

=== FILE: seqs.dfy ===
/**
 * Sequence helpers shared by the listing passes: distinctness, sums and
 * projections over records, Python slicing, and the stable descending sort
 * that both `sorted(..., reverse=True)` and Rust's `sort_by` perform.
 */
module Seqs {

  ghost predicate Distinct<T>(s: seq<T>)
  {
    forall i, j :: 0 <= i < j < |s| ==> s[i] != s[j]
  }

  lemma DistinctCons<T>(x: T, s: seq<T>)
    ensures Distinct([x] + s) <==> x !in s && Distinct(s)
  {
    var t := [x] + s;
    if x !in s && Distinct(s) {
      forall i, j | 0 <= i < j < |t|
        ensures t[i] != t[j]
      {
        if i > 0 {
          assert t[i] == s[i - 1] && t[j] == s[j - 1];
        } else {
          assert t[j] == s[j - 1];
        }
      }
    }
    if Distinct(t) {
      forall i, j | 0 <= i < j < |s|
        ensures s[i] != s[j]
      {
        assert t[i + 1] == s[i] && t[j + 1] == s[j];
      }
      forall k | 0 <= k < |s|
        ensures s[k] != x
      {
        assert t[k + 1] == s[k] && t[0] == x;
      }
    }
  }

  /** `f(s[0]) + f(s[1]) + ...`, accumulated left to right as the folds do. */
  function SumOf<T>(s: seq<T>, f: T -> real): real
  {
    if |s| == 0 then 0.0 else SumOf(s[..|s| - 1], f) + f(s[|s| - 1])
  }

  lemma SumOfSnoc<T>(s: seq<T>, x: T, f: T -> real)
    ensures SumOf(s + [x], f) == SumOf(s, f) + f(x)
  {
    assert (s + [x])[..|s|] == s;
  }

  /** `[f(x) for x in s]` */
  function Project<T, U>(s: seq<T>, f: T -> U): (r: seq<U>)
    ensures |r| == |s|
  {
    seq(|s|, i requires 0 <= i < |s| => f(s[i]))
  }

  lemma ProjectSnoc<T, U>(s: seq<T>, x: T, f: T -> U)
    ensures Project(s + [x], f) == Project(s, f) + [f(x)]
  {
  }

  /** In a sequence sorted by descending key, an element of the first `n` is never below one after them. */
  lemma PrefixDominates<T>(s: seq<T>, n: nat, key: T -> real)
    requires SortedDesc(s, key) && n <= |s|
    ensures forall i, x :: 0 <= i < n && x in s[n..] ==> key(s[i]) >= key(x)
  {
    forall i, x | 0 <= i < n && x in s[n..]
      ensures key(s[i]) >= key(x)
    {
      var j :| 0 <= j < |s[n..]| && s[n..][j] == x;
      assert s[n + j] == x;
    }
  }

  /** Python's `s[:limit]`; a negative limit counts from the end. */
  function Take<T>(s: seq<T>, limit: int): (r: seq<T>)
    ensures limit >= 0 ==> |r| == if limit < |s| then limit else |s|
    ensures limit < 0 ==> |r| == if |s| + limit > 0 then |s| + limit else 0
    ensures r <= s
  {
    var n := if limit >= 0 then limit else |s| + limit;
    if n <= 0 then [] else if n >= |s| then s else s[..n]
  }

  ghost predicate SortedDesc<T>(s: seq<T>, key: T -> real)
  {
    forall i, j :: 0 <= i < j < |s| ==> key(s[i]) >= key(s[j])
  }

  /** Puts `x` after every element whose key is at least `key(x)`. */
  function Insert<T>(s: seq<T>, x: T, key: T -> real): (r: seq<T>)
    requires SortedDesc(s, key)
    ensures multiset(r) == multiset(s) + multiset{x}
    ensures SortedDesc(r, key)
  {
    if |s| == 0 then [x]
    else if key(s[0]) >= key(x) then
      var t := Insert(s[1..], x, key);
      InsertBehind(s, x, key, t);
      [s[0]] + t
    else
      assert forall j :: 0 <= j < |s| ==> key(s[0]) >= key(s[j]);
      [x] + s
  }

  lemma InsertBehind<T>(s: seq<T>, x: T, key: T -> real, t: seq<T>)
    requires |s| > 0 && SortedDesc(s, key) && key(s[0]) >= key(x)
    requires multiset(t) == multiset(s[1..]) + multiset{x} && SortedDesc(t, key)
    ensures multiset([s[0]] + t) == multiset(s) + multiset{x}
    ensures SortedDesc([s[0]] + t, key)
  {
    assert s == [s[0]] + s[1..];
    forall j | 0 <= j < |t|
      ensures key(s[0]) >= key(t[j])
    {
      assert t[j] in multiset(t);
      if t[j] != x {
        assert t[j] in multiset(s[1..]);
        var k :| 0 <= k < |s[1..]| && s[1..][k] == t[j];
        assert s[k + 1] == t[j];
      }
    }
    var r := [s[0]] + t;
    forall i, j | 0 <= i < j < |r|
      ensures key(r[i]) >= key(r[j])
    {
      if i > 0 {
        assert r[i] == t[i - 1] && r[j] == t[j - 1];
      } else {
        assert r[j] == t[j - 1];
      }
    }
  }

  /**
   * Stable sort by descending key: elements are inserted in input order,
   * each after the earlier elements with an equal or larger key.
   */
  function SortDesc<T>(s: seq<T>, key: T -> real): (r: seq<T>)
    ensures multiset(r) == multiset(s)
    ensures SortedDesc(r, key)
  {
    if |s| == 0 then []
    else
      assert s == s[..|s| - 1] + [s[|s| - 1]];
      Insert(SortDesc(s[..|s| - 1], key), s[|s| - 1], key)
  }

  /** The elements of `s` whose key is exactly `c`, in order. */
  function WithKey<T>(s: seq<T>, key: T -> real, c: real): seq<T>
  {
    if |s| == 0 then []
    else WithKey(s[..|s| - 1], key, c) + (if key(s[|s| - 1]) == c then [s[|s| - 1]] else [])
  }

  lemma {:induction false} WithKeyConcat<T>(a: seq<T>, b: seq<T>, key: T -> real, c: real)
    ensures WithKey(a + b, key, c) == WithKey(a, key, c) + WithKey(b, key, c)
    decreases |b|
  {
    if |b| == 0 {
      assert a + b == a;
    } else {
      var b' := b[..|b| - 1];
      assert (a + b)[..|a + b| - 1] == a + b';
      WithKeyConcat(a, b', key, c);
    }
  }

  lemma WithKeyAllBelow<T>(s: seq<T>, key: T -> real, c: real)
    requires forall i :: 0 <= i < |s| ==> key(s[i]) < c
    ensures WithKey(s, key, c) == []
  {
  }

  lemma SortedTail<T>(s: seq<T>, key: T -> real)
    requires |s| > 0 && SortedDesc(s, key)
    ensures SortedDesc(s[1..], key)
  {
    forall i, j | 0 <= i < j < |s[1..]|
      ensures key(s[1..][i]) >= key(s[1..][j])
    {
      assert s[1..][i] == s[i + 1] && s[1..][j] == s[j + 1];
    }
  }

  lemma {:induction false} InsertStable<T>(s: seq<T>, x: T, key: T -> real, c: real)
    requires SortedDesc(s, key)
    ensures WithKey(Insert(s, x, key), key, c) == WithKey(s, key, c) + (if key(x) == c then [x] else [])
    decreases |s|
  {
    if |s| == 0 {
      assert WithKey([x], key, c) == WithKey([], key, c) + (if key(x) == c then [x] else []);
    } else if key(s[0]) >= key(x) {
      SortedTail(s, key);
      InsertStable(s[1..], x, key, c);
      InsertStableBehind(s, x, key, c);
    } else {
      InsertStableFront(s, x, key, c);
    }
  }

  lemma InsertStableBehind<T>(s: seq<T>, x: T, key: T -> real, c: real)
    requires |s| > 0 && SortedDesc(s, key) && SortedDesc(s[1..], key) && key(s[0]) >= key(x)
    requires WithKey(Insert(s[1..], x, key), key, c) == WithKey(s[1..], key, c) + (if key(x) == c then [x] else [])
    ensures WithKey(Insert(s, x, key), key, c) == WithKey(s, key, c) + (if key(x) == c then [x] else [])
  {
    var t := Insert(s[1..], x, key);
    var head := [s[0]];
    var extra := if key(x) == c then [x] else [];
    assert Insert(s, x, key) == head + t;
    WithKeyConcat(head, t, key, c);
    WithKeyConcat(head, s[1..], key, c);
    assert head + s[1..] == s;
    calc {
      WithKey(Insert(s, x, key), key, c);
      WithKey(head, key, c) + WithKey(t, key, c);
      WithKey(head, key, c) + (WithKey(s[1..], key, c) + extra);
      (WithKey(head, key, c) + WithKey(s[1..], key, c)) + extra;
      WithKey(s, key, c) + extra;
    }
  }

  lemma InsertStableFront<T>(s: seq<T>, x: T, key: T -> real, c: real)
    requires |s| > 0 && SortedDesc(s, key) && key(s[0]) < key(x)
    ensures WithKey(Insert(s, x, key), key, c) == WithKey(s, key, c) + (if key(x) == c then [x] else [])
  {
    assert Insert(s, x, key) == [x] + s;
    WithKeyConcat([x], s, key, c);
    assert WithKey([x], key, c) == WithKey([], key, c) + (if key(x) == c then [x] else []);
    if key(x) == c {
      assert forall i :: 0 <= i < |s| ==> key(s[0]) >= key(s[i]);
      WithKeyAllBelow(s, key, c);
    }
  }

  /** Stability: among elements with equal keys, the sorted order is the input order. */
  lemma {:induction false} SortDescStable<T>(s: seq<T>, key: T -> real, c: real)
    ensures WithKey(SortDesc(s, key), key, c) == WithKey(s, key, c)
    decreases |s|
  {
    if |s| > 0 {
      var init := s[..|s| - 1];
      SortDescStable(init, key, c);
      InsertStable(SortDesc(init, key), s[|s| - 1], key, c);
    }
  }
}

=== FILE: text.dfy ===
/**
 * The Python string operations the handlers rely on: `str.lower()`,
 * the substring test `p in s`, and `str.replace(p, '')`.
 */
module Text {

  /** ASCII case folding; characters outside 'A'..'Z' are left alone. */
  function LowerChar(c: char): char
  {
    if 'A' <= c <= 'Z' then (c as int + 32) as char else c
  }

  predicate IsUpper(c: char)
  {
    'A' <= c <= 'Z'
  }

  /** `s.lower()` */
  function Lower(s: string): (r: string)
    ensures |r| == |s|
    ensures forall i :: 0 <= i < |r| ==> !IsUpper(r[i])
    ensures forall i :: 0 <= i < |r| ==> LowerChar(r[i]) == LowerChar(s[i])
  {
    seq(|s|, i requires 0 <= i < |s| => LowerChar(s[i]))
  }

  /** `s` is `t` with its letters lower-cased, character by character. */
  predicate LowerCaseOf(s: string, t: string)
  {
    |s| == |t| && forall i :: 0 <= i < |t| ==> s[i] == LowerChar(t[i])
  }

  /** Lowering twice is lowering once, so a helper that lowers an already lowered name sees the same string. */
  lemma LowerIdempotent(s: string)
    ensures Lower(Lower(s)) == Lower(s)
  {
    var t := Lower(s);
    forall i | 0 <= i < |t|
      ensures Lower(t)[i] == t[i]
    {
      assert !IsUpper(t[i]);
    }
  }

  /** A string without upper-case letters is its own lower-case form. */
  lemma LowerOfLowerCase(s: string)
    requires forall i :: 0 <= i < |s| ==> !IsUpper(s[i])
    ensures Lower(s) == s
  {
  }

  /** Three pieces without upper-case letters make a string that is its own lower-case form. */
  lemma LowerOfLowerCaseParts(a: string, b: string, c: string)
    requires forall i :: 0 <= i < |a| ==> !IsUpper(a[i])
    requires forall i :: 0 <= i < |b| ==> !IsUpper(b[i])
    requires forall i :: 0 <= i < |c| ==> !IsUpper(c[i])
    ensures Lower(a + b + c) == a + b + c
  {
    LowerOfLowerCase(a);
    LowerOfLowerCase(b);
    LowerOfLowerCase(c);
    LowerConcat(a, b);
    LowerConcat(a + b, c);
  }

  /** Lowering works character by character, so it distributes over concatenation. */
  lemma LowerConcat(a: string, b: string)
    ensures Lower(a + b) == Lower(a) + Lower(b)
  {
    var l, r := Lower(a + b), Lower(a) + Lower(b);
    forall i | 0 <= i < |l|
      ensures l[i] == r[i]
    {
      if i < |a| {
        assert (a + b)[i] == a[i];
      } else {
        assert (a + b)[i] == b[i - |a|];
      }
    }
  }

  /** `p` occurs in `s` starting at position `i`. */
  ghost predicate OccursAt(p: string, s: string, i: int)
  {
    0 <= i && i + |p| <= |s| && s[i..i + |p|] == p
  }

  lemma OccursShift(p: string, s: string, i: int)
    requires |s| > 0
    requires OccursAt(p, s[1..], i)
    ensures OccursAt(p, s, i + 1)
  {
    assert s[1..][i..i + |p|] == s[i + 1..i + 1 + |p|];
  }

  lemma OccursUnshift(p: string, s: string, i: int)
    requires |s| > 0 && i >= 1
    requires OccursAt(p, s, i)
    ensures OccursAt(p, s[1..], i - 1)
  {
    assert s[1..][i - 1..i - 1 + |p|] == s[i..i + |p|];
  }

  /** Python's `p in s` on strings: `p` is a contiguous substring of `s`. */
  function Contains(s: string, p: string): (b: bool)
    ensures b <==> exists i :: OccursAt(p, s, i)
    decreases |s|
  {
    if |p| > |s| then
      assert forall i :: !OccursAt(p, s, i);
      false
    else if s[..|p|] == p then
      assert OccursAt(p, s, 0);
      true
    else
      ContainsTail(p, s);
      Contains(s[1..], p)
  }

  /** An occurrence in `s` after position 0 is an occurrence in `s[1..]`, and conversely. */
  lemma ContainsTail(p: string, s: string)
    requires |s| > 0 && (|p| > |s| || s[..|p|] != p)
    ensures (exists i :: OccursAt(p, s[1..], i)) <==> (exists i :: OccursAt(p, s, i))
  {
    if exists i :: OccursAt(p, s[1..], i) {
      var i :| OccursAt(p, s[1..], i);
      OccursShift(p, s, i);
    }
    if exists i :: OccursAt(p, s, i) {
      var i :| OccursAt(p, s, i);
      assert i != 0;
      OccursUnshift(p, s, i);
    }
  }

  /** A string contains each piece it is built from. */
  lemma ContainsInside(a: string, p: string, b: string)
    ensures Contains(a + p + b, p)
  {
    var w := a + p + b;
    assert w[|a|..|a| + |p|] == p;
    assert OccursAt(p, w, |a|);
  }

  /** Appending to a string keeps what it contains. */
  lemma ContainsExtend(s: string, p: string, c: string)
    requires Contains(s, p)
    ensures Contains(s + c, p)
  {
    var i :| OccursAt(p, s, i);
    assert (s + c)[i..i + |p|] == s[i..i + |p|];
    assert OccursAt(p, s + c, i);
  }

  /** A pattern using a character that `s` lacks cannot occur in `s`. */
  lemma MissingCharNotContained(s: string, p: string, c: char)
    requires c in p && c !in s
    ensures !Contains(s, p)
  {
  }

  /**
   * Python's `s.replace(pat, '')`: scanning left to right, every
   * non-overlapping occurrence of `pat` is removed; matching is
   * case-sensitive.
   */
  function RemoveAll(s: string, pat: string): (r: string)
    requires |pat| > 0
    ensures |r| <= |s|
    decreases |s|
  {
    if |s| < |pat| then s
    else if s[..|pat|] == pat then RemoveAll(s[|pat|..], pat)
    else [s[0]] + RemoveAll(s[1..], pat)
  }

  /** Replacing by the empty string only deletes: every character of the result comes from `s`, at most as often. */
  lemma {:induction false} RemoveAllOnlyDeletes(s: string, pat: string)
    requires |pat| > 0
    ensures multiset(RemoveAll(s, pat)) <= multiset(s)
    decreases |s|
  {
    if |s| >= |pat| {
      if s[..|pat|] == pat {
        assert s == s[..|pat|] + s[|pat|..];
        RemoveAllOnlyDeletes(s[|pat|..], pat);
      } else {
        assert s == [s[0]] + s[1..];
        RemoveAllOnlyDeletes(s[1..], pat);
      }
    }
  }

  /** Without an occurrence of `pat`, nothing is removed. */
  lemma {:induction false} RemoveAllWithoutMatch(s: string, pat: string)
    requires |pat| > 0 && !Contains(s, pat)
    ensures RemoveAll(s, pat) == s
    decreases |s|
  {
    if |s| >= |pat| {
      ContainsTail(pat, s);
      RemoveAllWithoutMatch(s[1..], pat);
    }
  }

  /**
   * The left-to-right rule: when the first occurrence of `pat` in `w`
   * starts at `n`, the text before it is kept, the occurrence is dropped
   * and scanning resumes after it.
   */
  lemma {:induction false} RemoveAllFirstOccurrence(w: string, pat: string, n: nat)
    requires |pat| > 0
    requires OccursAt(pat, w, n)
    requires forall i :: 0 <= i < n ==> !OccursAt(pat, w, i)
    ensures RemoveAll(w, pat) == w[..n] + RemoveAll(w[n + |pat|..], pat)
    decreases n
  {
    if n == 0 {
      RemoveAllAtStart(w, pat);
    } else {
      var tail := w[1..];
      FirstOccurrenceInTail(w, tail, pat, n);
      RemoveAllFirstOccurrence(tail, pat, n - 1);
      var rest := RemoveAll(w[n + |pat|..], pat);
      assert tail[n - 1 + |pat|..] == w[n + |pat|..];
      assert RemoveAll(tail, pat) == tail[..n - 1] + rest;
      assert |w| >= |pat| && w[..|pat|] != pat by {
        assert !OccursAt(pat, w, 0);
      }
      assert RemoveAll(w, pat) == [w[0]] + RemoveAll(tail, pat);
      ConsPrefix(w, n, rest);
    }
  }

  lemma RemoveAllAtStart(w: string, pat: string)
    requires |pat| > 0 && OccursAt(pat, w, 0)
    ensures RemoveAll(w, pat) == w[..0] + RemoveAll(w[|pat|..], pat)
  {
    assert w[..|pat|] == pat;
    assert w[..0] == [];
  }

  /** With the first occurrence at `n > 0`, the tail's first occurrence is at `n - 1`. */
  lemma FirstOccurrenceInTail(w: string, tail: string, pat: string, n: nat)
    requires 0 < n <= |w| && tail == w[1..]
    requires OccursAt(pat, w, n)
    requires forall i :: 0 <= i < n ==> !OccursAt(pat, w, i)
    ensures OccursAt(pat, tail, n - 1)
    ensures forall i :: 0 <= i < n - 1 ==> !OccursAt(pat, tail, i)
    ensures !OccursAt(pat, w, 0) && n + |pat| <= |w|
  {
    OccursUnshift(pat, w, n);
    forall i | 0 <= i < n - 1
      ensures !OccursAt(pat, tail, i)
    {
      if OccursAt(pat, tail, i) {
        OccursShift(pat, w, i);
      }
    }
  }

  lemma ConsPrefix<T>(w: seq<T>, n: nat, t: seq<T>)
    requires 0 < n <= |w|
    ensures [w[0]] + (w[1..][..n - 1] + t) == w[..n] + t
  {
    assert [w[0]] + w[1..][..n - 1] == w[..n];
  }
}

=== FILE: wrappers.dfy ===
/**
 * Option, and the Python truthiness defaults (`value or default`) that the
 * handlers apply to attributes psutil could not read.
 */
module Wrappers {

  datatype Option<+T> = None | Some(value: T)

  /** `s or default` on a string attribute: a missing value and "" are both falsy. */
  function StrOr(s: Option<string>, default: string): string
  {
    if s.Some? && s.value != "" then s.value else default
  }

  /** `x or 0` on a numeric attribute (0.0 is falsy, but replacing it by 0 changes nothing). */
  function RealOr0(x: Option<real>): real
  {
    if x.Some? then x.value else 0.0
  }

  /** `n or 0` on a count attribute. */
  function NatOr0(n: Option<nat>): nat
  {
    if n.Some? then n.value else 0
  }
}
